=== FILE: README.md ===
# Sinapi resource library: a Dafny model

Sinapi is a small React front end for a library of product manuals and
brochures. It keeps the rows in a hosted `resources` table and the documents in
a storage bucket of the same name. This project models the rules underneath the
user interface as pure Dafny functions over immutable datatypes, and proves
what those rules guarantee. The modelled rules are:

- the browse page's search, category chips and manual/brochure split
  (`Browse`, `Text`);
- the `useResources` hook as a state machine over `{resources, loading, error}`
  (`ResourceStore`);
- the admin form: translation rows, the valid-row rule, the icon picker, and
  the insert or update record a submit builds (`AdminPanel`);
- storage paths: generated file names, recovering a path from a public URL,
  the icon guards and the delete skip rule (`FileUpload`);
- the public landing page: default language, translation lookup, file
  fallback and the load outcome (`ManualLanding`);
- the QR-code image URL (`QrCode`). Its query string is
  `application/x-www-form-urlencoded` as defined in section 5 of the WHATWG URL
  Standard. That serializer and parser are modelled in `FormUrlEncoded`, over
  the UTF-8 encoder and decoder of the WHATWG Encoding Standard (`Utf8`).

Shared pieces:

- `Types` holds the records.
- `Wrappers` holds `Option` and `Result`.
- `Seqs` holds filtering, splitting, joining and de-duplication, with their
  lemmas.

Network calls, clocks and randomness are parameters. Each store call is
replaced by the outcome it produced. Each upload is a function from a file to
a URL or a failure. The random part of a generated file name is passed in as
`unique`. The `new URL(...)` parse is passed in as its resulting pathname, or
`None` when it threw.

Where the code is at odds with its own declarations, the model follows what the code does:

- `Resource` in `src/types.ts` has neither `translations` nor `icon_url`, yet
  the admin panel and the landing page read and write both. The model's
  `Resource` has both. A missing `translations` column is the empty sequence,
  because every reader treats the two alike.
- Deleting a resource through the hook removes the row only. It never calls
  `deleteFile`, so the stored document stays in the bucket.
- On the landing page, a `null` row without an error makes
  `data.translations` throw a `TypeError`. So "Manual not found" appears only
  when the caught message is empty. `ManualLanding.Load` takes the engine's
  `TypeError` text as a parameter.
- The admin panel destructures `updateResource` from the hook
  (`src/components/AdminPanel.tsx:16`), but the hook does not return one
  (`src/hooks/useResources.ts:61-68`). So `await updateResource(...)` at
  `src/components/AdminPanel.tsx:161` throws a `TypeError` once the uploads
  are done. Every edit submit therefore ends with the alert "Failed to update
  resource. Please try again." and the form kept. `AdminPanel.HandleSubmit`
  takes the store call as a parameter; `AdminPanel.WiredSave` is that call as
  the panel wires it, and `AdminPanel.IntendedSave` is the one with an
  `updateResource` supplied.
- Edit mode cannot be entered from the interface. The panel passes
  `onEdit={handleEditResource}` to `ResourceCard`
  (`src/components/AdminPanel.tsx:396-401`), but `ResourceCard` declares and
  uses only `resource`, `isAdmin` and `onDelete`
  (`src/components/ResourceCard.tsx:5-11`). The model still covers edit mode
  through `AdminPanel.EditResource`, as the handler is written.

## Model

| member | source | states |
|---|---|---|
| Browse.Categories | src/App.tsx:26 | the chip list starts with `'all'`, its tail has no duplicates, lists exactly the resources' categories, in order of first appearance |
| Browse.CategoriesRepeatAll | src/App.tsx:26 | the whole chip list has a duplicate exactly when some resource's category is literally `'all'` |
| Browse.FilterResources | src/App.tsx:28-37 | the shown list keeps exactly the matching resources and is an order-preserving subsequence of the loaded list |
| Browse.FilterKeepsExactly | src/App.tsx:29-36 | a resource is shown iff the lower-cased query occurs in its lower-cased title or description, its category is selected or `'all'` is, and its type is selected or all types are |
| Browse.EmptyQueryKeepsAll | src/App.tsx:19-37 | with the initial controls (empty search, `'all'`, `'all'`) every loaded resource is shown, in order |
| Browse.FilterResourcesIdempotent | src/App.tsx:28-37 | filtering the shown list again with the same controls changes nothing |
| Browse.Manuals | src/App.tsx:39 | the manuals section holds exactly the shown resources of type manual |
| Browse.Brochures | src/App.tsx:40 | the brochures section holds exactly the shown resources of type brochure |
| Browse.SectionsPartition | src/App.tsx:39-40 | the two sections together are a permutation of the shown list, and each keeps the shown order |
| Browse.Render | src/App.tsx:39-57 | the page shows the spinner iff loading; the error screen with the error's text iff not loading with a non-empty error; otherwise the category chips of the loaded list, the manuals and the brochures of the shown list, which together are a permutation of it |
| Browse.ErrorPageIsSticky | src/hooks/useResources.ts:10-24 | once the page shows an error, it keeps showing one through any later fetches, adds and deletes whose failures carry text |
| Text.ContainsIff | src/App.tsx:31-32 | the substring search agrees with "occurs at some position" |
| Text.Lower | src/App.tsx:29-32 | lower-casing keeps the length and maps each ASCII capital to its small letter |
| ResourceStore.BeginFetch | src/hooks/useResources.ts:12 | a fetch starts by setting `loading` and changes nothing else |
| ResourceStore.FinishFetch | src/hooks/useResources.ts:18-24 | a successful fetch installs the data (`[]` for null) and keeps the error; a failed one keeps the list and records the message or the fallback; both end not loading |
| ResourceStore.FetchResources | src/hooks/useResources.ts:10-25 | a whole fetch ends not loading; a success installs the returned rows (`[]` for null) and keeps the error; a failure keeps the list and records the message or `'Failed to fetch resources'` |
| ResourceStore.AddResource | src/hooks/useResources.ts:27-41 | a successful insert prepends the returned row (length grows by one) and returns it; a failure leaves the state unchanged and rethrows the message or `'Failed to add resource'` |
| ResourceStore.WithoutId | src/hooks/useResources.ts:51 | the filtered list holds exactly the entries whose id differs |
| ResourceStore.DeleteResource | src/hooks/useResources.ts:43-55 | a successful delete removes the id's entries; a failure leaves the state unchanged and rethrows the message or `'Failed to delete resource'` |
| ResourceStore.DeleteCount | src/hooks/useResources.ts:51 | a delete shortens the list by exactly the number of rows carrying the id |
| ResourceStore.DeleteAbsentId | src/hooks/useResources.ts:51 | deleting an id no entry has leaves the state unchanged |
| ResourceStore.DeleteIdempotent | src/hooks/useResources.ts:51 | deleting the same id twice is deleting it once |
| ResourceStore.ErrorIsSticky | src/hooks/useResources.ts:10-55 | no sequence of fetches, adds and deletes clears an error once set |
| ResourceStore.LoadingOnlyFromFetch | src/hooks/useResources.ts:10-55 | from a state that is not loading, every sequence of fetches, adds and deletes ends not loading |
| AdminPanel.ResetForm | src/components/AdminPanel.tsx:33-41 | a reset gives an add-mode form with blank fields of type manual, no rows and no icon |
| AdminPanel.EditResource | src/components/AdminPanel.tsx:43-55 | edit mode copies the fields and gives one row per stored translation, same language and order, with no file, and no icon |
| AdminPanel.AddTranslationField | src/components/AdminPanel.tsx:57-58 | exactly one blank row is appended and earlier rows are unchanged |
| AdminPanel.UpdateTranslation | src/components/AdminPanel.tsx:60-68 | only the edited field of the indexed row changes; length, the other field and other rows are unchanged; an out-of-range index is a no-op |
| AdminPanel.RemoveTranslationField | src/components/AdminPanel.tsx:70-72 | exactly the indexed row is removed and the rest keep their order; an out-of-range index is a no-op |
| AdminPanel.RemoveUndoesAdd | src/components/AdminPanel.tsx:57-72 | removing the row just appended restores the previous rows |
| AdminPanel.UpdateOverrides | src/components/AdminPanel.tsx:60-68 | a second edit of the same field of the same row overrides the first |
| AdminPanel.ValidTranslations | src/components/AdminPanel.tsx:124 | the valid rows are the rows with a language and a file, in their original order, each as many times as it occurs among the rows; invalid rows are dropped |
| AdminPanel.EditedRowsAreNotValid | src/components/AdminPanel.tsx:51-53 | rows taken over in edit mode carry no file, so none is valid |
| AdminPanel.IconChange | src/components/AdminPanel.tsx:74-101 | the picker keeps a file iff its type is PNG/JPEG/WEBP and it is at most 2 MB; otherwise it clears the icon with an alert, the type alert exactly when the type is wrong and the size alert exactly when only the size is; nothing else in the form changes |
| AdminPanel.KeptIconPassesUploadGuards | src/components/AdminPanel.tsx:82-100 | an icon the picker keeps passes both guards of `uploadIcon` and is stored under `icons/` |
| AdminPanel.UploadAll | src/components/AdminPanel.tsx:147-152 | the uploads succeed iff every row's upload does, and then entry i carries row i's language, upload URL and file name; a failure carries the error of a row whose upload failed |
| AdminPanel.IconKey | src/components/AdminPanel.tsx:142 | the `icon_url` key is present iff an icon URL was obtained and is non-empty |
| AdminPanel.UploadPickedIcon | src/components/AdminPanel.tsx:132-135 | with no icon nothing is uploaded; with one, the result is its upload's URL or failure |
| AdminPanel.MainFile | src/components/AdminPanel.tsx:154-157 | the main file columns come from the first uploaded translation, the QR code is the QR image URL generated for its URL, and that code's `data` parameter decodes back to the URL |
| AdminPanel.BuildRequest | src/components/AdminPanel.tsx:119-182 | a submit is refused for lack of translations iff it is an add with no valid row; past that check a request is built iff the picked icon's upload (if any) and every valid row's upload succeed; a failed icon upload is the error reported, otherwise a failed row's; a request is an insert iff in add mode, and an update targets the edited id |
| AdminPanel.RequestAfterIcon | src/components/AdminPanel.tsx:137-181 | once the icon is settled, the request is built iff every valid row's upload succeeds, a failure carrying a failed row's error; it is an insert iff in add mode, and an update targets the edited id |
| AdminPanel.RejectionPrecedesUploads | src/components/AdminPanel.tsx:124-128 | whether an add is refused does not depend on what any upload would do |
| AdminPanel.UnchangedEditResubmit | src/components/AdminPanel.tsx:140-161 | submitting right after entering edit mode sends the stored fields only, with no icon key and no file, QR or translation columns |
| AdminPanel.InsertFollowsValidRows | src/components/AdminPanel.tsx:164-181 | an insert carries the form's fields and one uploaded translation per valid row, in order, with its language and file name; the main file is the first one, the QR code is the one generated for its URL, and it decodes back to that URL |
| AdminPanel.UpdateFollowsValidRows | src/components/AdminPanel.tsx:137-159 | an update carries the form's fields; it sets file columns iff some row is valid, and then entry i carries valid row i's language, file name and upload URL, with the main file and QR code of the first |
| AdminPanel.IconKeyIffUploaded | src/components/AdminPanel.tsx:132-143 | the request carries `icon_url` iff an icon was picked and its upload gave a non-empty URL, and then it is that URL |
| AdminPanel.HandleSubmit | src/components/AdminPanel.tsx:119-191 | a submit resets the form iff a request was built and saved; otherwise the form is unchanged and an alert is raised, the translation alert exactly for an add with no valid row, and the add or update failure alert for every other failure |
| AdminPanel.EditSubmitAlwaysFails | src/components/AdminPanel.tsx:16-161 | with the store call as wired, every edit submit keeps the form and raises "Failed to update resource. Please try again.", whatever the uploads do |
| AdminPanel.EditSubmitWithUpdate | src/components/AdminPanel.tsx:161-188 | with an `updateResource` supplied, a built update the store accepts resets the form with no alert, and one it refuses keeps the form with the update alert |
| AdminPanel.ResetFormIsRejected | src/components/AdminPanel.tsx:124-128 | a freshly reset form is refused for lack of translations |
| FileUpload.CheckIcon | src/utils/fileUpload.ts:59-66 | an icon passes iff its type is allowed and its size is at most 2 MB; the type error is reported exactly when the type is wrong, whatever the size |
| FileUpload.IconSizeBoundary | src/utils/fileUpload.ts:6-7 | with an allowed type, 2,097,152 bytes pass and 2,097,153 bytes are too large |
| FileUpload.Extension | src/utils/fileUpload.ts:10 | the extension is the lower-cased text after the last dot, or the whole name lower-cased when there is no dot |
| FileUpload.ExtensionAfterDot | src/utils/fileUpload.ts:10 | a name ending in `.` and a dot-free lower-case word has exactly that word as its extension |
| FileUpload.NormalizedFileName | src/utils/fileUpload.ts:11-12 | the stored name is the unique name, followed by `.` and the extension when there is one |
| FileUpload.GenerateFilePath | src/utils/fileUpload.ts:9-14 | with a non-empty directory the path is `directory/name`, otherwise just the name |
| FileUpload.GeneratedPathKeepsExtension | src/utils/fileUpload.ts:9-14 | a generated path has the same extension as the uploaded file |
| FileUpload.Segments | src/utils/fileUpload.ts:40 | the segments are exactly the pathname's non-empty `/`-pieces, in order and with their multiplicities |
| FileUpload.PathFromSegments | src/utils/fileUpload.ts:41-45 | no path without segments; without a `resources` segment, the last segment; with one, the segments after its first occurrence joined by `/` |
| FileUpload.ExtractFromPathname | src/utils/fileUpload.ts:40-45 | a pathname gives no path iff it has no segments; without a `resources` segment it gives the pathname's last non-empty `/`-piece: slash-free, at the start or after a `/`, with only `/`s after it |
| FileUpload.LastSegment | src/utils/fileUpload.ts:40-43 | the last of a pathname's segments is its last non-empty `/`-piece, however many `/`s trail it |
| FileUpload.ExtractPathFromPublicUrl | src/utils/fileUpload.ts:37-50 | a parsed URL's path comes from its pathname alone; when the URL does not parse, the fallback is a slash-free suffix of the URL that is the whole URL or follows its last `/` |
| FileUpload.ExtractRoundTrip | src/utils/fileUpload.ts:37-45 | a pathname of a `resources`-free prefix, `resources`, and a path with non-empty segments gives back that path |
| FileUpload.GeneratedPathRoundTrip | src/utils/fileUpload.ts:9-45 | the public-URL pathname of any generated path gives back that path |
| FileUpload.DeleteFile | src/utils/fileUpload.ts:73-82 | the object removed is the non-empty extracted path; removal is skipped iff the path is null or empty |
| FileUpload.DeleteSkipsBucketRoot | src/utils/fileUpload.ts:73-78 | a URL ending at the `resources` segment removes nothing |
| FileUpload.DeleteRemovesGeneratedPath | src/utils/fileUpload.ts:9-82 | deleting the public URL of a generated path removes exactly that path |
| FileUpload.UploadToStorage | src/utils/fileUpload.ts:16-35 | an upload succeeds iff storage reports no error and yields the public URL; a failure reads `Upload failed: ` and the message |
| FileUpload.UploadFile | src/utils/fileUpload.ts:53-57 | documents are stored at the bucket root under their normalized name |
| FileUpload.UploadIcon | src/utils/fileUpload.ts:59-71 | the type is checked before the size, each with its own message, and an accepted icon is stored under `icons/` |
| QrCode.WithQuery | src/utils/qrCode.ts:12 | the base is followed by `?` and the query, which is read back unchanged |
| QrCode.GenerateQRCode | src/utils/qrCode.ts:1-13 | the URL is the QR API base, `?`, and the serialized five parameters |
| QrCode.QueryRoundTrip | src/utils/qrCode.ts:4-10 | the query parses back to exactly `size=200x200`, `data=url`, `format=png`, `bgcolor=ffffff`, `color=1e3a8a`, in that order |
| QrCode.DataRoundTrip | src/utils/qrCode.ts:6 | the `data` parameter decodes to the input URL exactly |
| QrCode.GenerateInjective | src/utils/qrCode.ts:1-13 | distinct input URLs give distinct QR URLs |
| FormUrlEncoded.ParseSerialize | src/utils/qrCode.ts:4-12 | parsing a serialized list of name/value pairs gives back the list |
| Utf8.DecodeEncode | src/utils/qrCode.ts:4-12 | UTF-8 decoding of an encoded string gives the string back |
| ManualLanding.InitialLanguage | src/components/ManualLanding.tsx:29 | the initial language is empty when there are no translations, and otherwise one of the offered languages that selects the first translation |
| ManualLanding.FileUrl | src/components/ManualLanding.tsx:56-59 | the link is the URL of the first translation in the selected language when it is non-empty, and the resource's own URL otherwise |
| ManualLanding.FileName | src/components/ManualLanding.tsx:56-60 | the download name follows the same rule with the file names |
| ManualLanding.CurrentTranslation | src/components/ManualLanding.tsx:56-58 | there is no current translation iff no translation has the selected language; otherwise one is found with that language |
| ManualLanding.CurrentIsFirstMatch | src/components/ManualLanding.tsx:56-58 | the current translation is the first in stored order with the selected language |
| ManualLanding.NoMatchFallsBack | src/components/ManualLanding.tsx:56-60 | with no translation in the selected language (or none at all) the resource's own file URL and name are used |
| ManualLanding.SelectedLanguageFile | src/components/ManualLanding.tsx:59-60 | selecting a language links its first translation's file URL (name) when it is non-empty, and the resource's own URL (name) when it is empty |
| ManualLanding.FileUrlIsRecorded | src/components/ManualLanding.tsx:59 | the link is the resource's own URL or one of its translations' URLs |
| ManualLanding.DefaultLanguageSelectsFirst | src/components/ManualLanding.tsx:29 | the initial language selects the first translation, whose file is linked when its URL is set |
| ManualLanding.Load | src/components/ManualLanding.tsx:16-35 | loading ends; a failure records the message or `'Failed to load manual'` and keeps the rest; a row is installed and the selection set to its first language; a null row records the engine's `TypeError` text |
| ManualLanding.SelectLanguage | src/components/ManualLanding.tsx:97 | choosing a language changes the selection only |
| ManualLanding.Languages | src/components/ManualLanding.tsx:100-104 | the selector offers each translation's language in stored order |
| ManualLanding.Render | src/components/ManualLanding.tsx:40-60 | the spinner iff loading; the error text, or "Manual not found" when there is no text, iff there is an error text or no resource; otherwise the resource's title and description, its languages, and the file URL and name for the selected language |
| ManualLanding.LoadOutcome | src/components/ManualLanding.tsx:27-54 | after the fetch the page never shows the spinner; a failure shows its message or "Manual not found"; a row shows that row opened on its first language |

## Left out

- Network I/O is not modelled: the database calls, storage upload, public URL,
  remove, and sign-in and sign-out. Each one is an input, either its outcome
  or a function.
- `Date.now()` and `Math.random()` in `generateFilePath` are not modelled. The
  unique part of the name is a parameter.
- WHATWG URL parsing in `extractPathFromPublicUrl` is not modelled. The
  function takes the parsed pathname, or `None` when `new URL` throws.
  Percent-encoding of the pathname is part of that parse and is not modelled
  either.
- Text.Lower: lower-cases ASCII letters only, because Unicode case mapping is
  not needed for the search rules proved here.
- AdminPanel.UploadAll: `Promise.all` runs the uploads concurrently and rejects
  with the first failure in time. The model uploads in row order, and the
  first failing row wins. The catch clause discards the message either way.
- The `isLoading` flag, alerts as UI, the confirm dialog and the delete
  handler's alert, the sign-in form, menus, modals and all rendering markup
  are not modelled. They are outside the rules of this model.
- The form's title, description and category `onChange` setters are not
  modelled: each one replaces a single field.
- The `required` attributes of the HTML form are not modelled. They are
  browser validation that runs before the submit handler.
- The store-side merge of `updateResource` is not modelled, because the hook
  does not provide it. The model builds the update record and takes the store
  call's outcome as a parameter.
- QrCode.GenerateInjective: Dafny strings are sequences of Unicode scalar
  values, so JavaScript strings holding a lone surrogate are not represented.
  `URLSearchParams` turns a lone surrogate into U+FFFD before encoding, so in
  the source `generateQRCode('\uD800')` equals `generateQRCode('\uFFFD')`.
  Injectivity holds only for well-formed strings.
- QrCode.DataRoundTrip: holds for well-formed strings only, for the same
  reason; a lone surrogate comes back as U+FFFD.
- ResourceStore.Run: each fetch, add and delete is applied as one atomic
  step. In the source an add or delete can complete while a fetch is
  awaiting the store, and the fetch's `setResources(data || [])` then
  overwrites that change. Such interleavings are not modelled.
- The download in `handleDownload` (fetch, blob and object URL) is not
  modelled, because it is browser I/O.
- `src/components/ResourceCard.tsx`, `src/main.tsx`, `scripts/migrate.js` and
  `src/storage.ts` are not part of this model. They hold presentation,
  bootstrap, tooling and a duplicate of `generateFilePath`.
- ResourceStore.ErrorIsSticky: states that an error stays set, not which text
  it holds, because a later failed fetch replaces the text.

## Findings

| source | as written | input that shows it | evidently intended | confidence | as-written member | corrected member |
|---|---|---|---|---|---|---|
| src/components/AdminPanel.tsx:16-161 | `updateResource` is taken from `useResources()`, which returns no such member, and is then called | any submit in edit mode, e.g. a resource opened for editing and submitted unchanged | an edit whose uploads succeed is saved through the store and resets the form | high (not executed) | AdminPanel.EditSubmitAlwaysFails | AdminPanel.EditSubmitWithUpdate |

=== FILE: admin_panel.dfy ===
/** The resource form of `src/components/AdminPanel.tsx`: the translation rows
    and their handlers, the icon picker's acceptance rule, and the insert or
    update record `handleAddResource` assembles. Uploads are parameters: the
    panel only sees the URL (or the failure) each one produces. */
module AdminPanel {
  import opened Wrappers
  import opened Seqs
  import opened Types
  import FileUpload
  import QrCode
  import FormUrlEncoded

  /** One translation row: a language and the document picked for it. */
  datatype Row = Row(language: string, file: Option<File>)

  /** The form's text fields and type selector (`newResource`). */
  datatype Fields = Fields(title: string, description: string, category: string, kind: ResourceType)

  const BlankFields: Fields := Fields("", "", "", Manual)

  /** The whole form: the resource being edited (none in add mode), the
      fields, the translation rows and the picked icon. */
  datatype Form = Form(editing: Option<Resource>, fields: Fields, rows: seq<Row>, icon: Option<File>)

  /** `resetForm`: back to an empty add form. */
  function ResetForm(form: Form): (r: Form)
    ensures r.editing.None? && r.rows == [] && r.icon.None?
    ensures r.fields == Fields("", "", "", Manual)
  {
    Form(None, BlankFields, [], None)
  }

  /** `handleEditResource`: edit mode on `res`, the fields copied from it, one
      row per stored translation with its language and no file, no icon. */
  function EditResource(form: Form, res: Resource): (r: Form)
    ensures r.editing == Some(res)
    ensures r.fields == Fields(res.title, res.description, res.category, res.kind)
    ensures |r.rows| == |res.translations|
    ensures forall i :: 0 <= i < |r.rows| ==> r.rows[i] == Row(res.translations[i].language, None)
    ensures r.icon.None?
  {
    var rows := seq(|res.translations|, i requires 0 <= i < |res.translations| => Row(res.translations[i].language, None));
    Form(Some(res), Fields(res.title, res.description, res.category, res.kind), rows, None)
  }

  /** `addTranslationField`: one blank row at the end. */
  function AddTranslationField(rows: seq<Row>): (r: seq<Row>)
    ensures |r| == |rows| + 1
    ensures r[..|rows|] == rows && r[|rows|] == Row("", None)
  {
    rows + [Row("", None)]
  }

  /** The two inputs of a row: `updateTranslation(index, 'language', v)` and
      `updateTranslation(index, 'file', v)`. */
  datatype RowEdit = SetLanguage(language: string) | SetFile(file: Option<File>)

  function ApplyEdit(row: Row, e: RowEdit): Row {
    match e
    case SetLanguage(l) => row.(language := l)
    case SetFile(f) => row.(file := f)
  }

  /** `updateTranslation`: row `index` gets the edited field; an index that
      names no row changes nothing. */
  function UpdateTranslation(rows: seq<Row>, index: int, e: RowEdit): (r: seq<Row>)
    ensures |r| == |rows|
    ensures forall i :: 0 <= i < |rows| && i != index ==> r[i] == rows[i]
    ensures 0 <= index < |rows| && e.SetLanguage? ==> r[index] == Row(e.language, rows[index].file)
    ensures 0 <= index < |rows| && e.SetFile? ==> r[index] == Row(rows[index].language, e.file)
    ensures !(0 <= index < |rows|) ==> r == rows
  {
    seq(|rows|, i requires 0 <= i < |rows| => if i == index then ApplyEdit(rows[i], e) else rows[i])
  }

  /** `removeTranslationField`: keep every row whose position differs from
      `index`, walking the rows as `filter` does. */
  function RemoveTranslationField(rows: seq<Row>, index: int): (r: seq<Row>)
    ensures 0 <= index < |rows| ==> |r| == |rows| - 1 && r == rows[..index] + rows[index + 1..]
    ensures !(0 <= index < |rows|) ==> r == rows
    decreases |rows|
  {
    if |rows| == 0 then []
    else (if index == 0 then [] else [rows[0]]) + RemoveTranslationField(rows[1..], index - 1)
  }

  /** Removing the row just added gives back the rows before it. */
  lemma RemoveUndoesAdd(rows: seq<Row>)
    ensures RemoveTranslationField(AddTranslationField(rows), |rows|) == rows
  {
    var added := AddTranslationField(rows);
    assert added[..|rows|] == rows;
  }

  /** A second edit of the same field of the same row overrides the first. */
  lemma UpdateOverrides(rows: seq<Row>, index: int, e1: RowEdit, e2: RowEdit)
    requires e1.SetLanguage? == e2.SetLanguage?
    ensures UpdateTranslation(UpdateTranslation(rows, index, e1), index, e2) == UpdateTranslation(rows, index, e2)
  {
    var once := UpdateTranslation(rows, index, e1);
    var twice := UpdateTranslation(once, index, e2);
    var direct := UpdateTranslation(rows, index, e2);
    forall i | 0 <= i < |rows|
      ensures twice[i] == direct[i]
    {
    }
  }

  /** `t.language && t.file`: a row counts once it has a language and a file. */
  predicate ValidRow(row: Row) {
    row.language != "" && row.file.Some?
  }

  /** `validTranslations`. */
  function ValidTranslations(rows: seq<Row>): (r: seq<Row>)
    ensures forall x :: x in r <==> x in rows && ValidRow(x)
    ensures forall i :: 0 <= i < |r| ==> r[i].language != "" && r[i].file.Some?
    ensures IsSubseq(r, rows)
    ensures forall x :: multiset(r)[x] == if ValidRow(x) then multiset(rows)[x] else 0
  {
    FilterSubseq(rows, ValidRow);
    FilterMultiset(rows, ValidRow);
    Filter(rows, ValidRow)
  }

  /** Rows taken over from a stored resource carry no file, so none is valid. */
  lemma EditedRowsAreNotValid(form: Form, res: Resource)
    ensures ValidTranslations(EditResource(form, res).rows) == []
  {
    FilterNone(EditResource(form, res).rows, ValidRow);
  }

  const PickIconTypeAlert: string := "Please select a PNG, JPG, or WEBP image for the icon."
  const PickIconSizeAlert: string := "Icon file must be 2 MB or smaller."

  /** `handleIconChange`: the picked file is kept when its type is allowed
      and it is at most 2 MB; otherwise the picker is cleared with an alert
      naming the first rule broken (type before size). */
  function IconChange(form: Form, picked: Option<File>): (out: (Form, Option<string>))
    ensures out.0 == form.(icon := out.0.icon)
    ensures out.0.icon.Some? <==> picked.Some? && FileUpload.IconAcceptable(picked.value)
    ensures out.0.icon.Some? ==> out.0.icon == picked
    ensures out.1.None? <==> picked.None? || FileUpload.IconAcceptable(picked.value)
    ensures out.1 == Some(PickIconTypeAlert) <==>
      picked.Some? && FileUpload.CheckIcon(picked.value) == Some(FileUpload.InvalidType)
    ensures out.1 == Some(PickIconSizeAlert) <==>
      picked.Some? && FileUpload.CheckIcon(picked.value) == Some(FileUpload.TooLarge)
  {
    match picked
    case None => (form.(icon := None), None)
    case Some(f) =>
      if f.mime !in FileUpload.IconAllowedMimeTypes then (form.(icon := None), Some(PickIconTypeAlert))
      else if f.size > FileUpload.IconMaxFileSize then (form.(icon := None), Some(PickIconSizeAlert))
      else (form.(icon := Some(f)), None)
  }

  /** An icon the picker keeps passes both guards of `uploadIcon`, so its upload
      goes straight to the `icons/` directory. */
  lemma KeptIconPassesUploadGuards(form: Form, picked: Option<File>, unique: string, st: FileUpload.Storage)
    requires IconChange(form, picked).0.icon.Some?
    ensures var f := IconChange(form, picked).0.icon.value;
      FileUpload.UploadIcon(f, unique, st) == FileUpload.UploadToStorage("icons/" + FileUpload.NormalizedFileName(f.name, unique), st)
  {
  }

  /** The uploads of `Promise.all(validTranslations.map(...))`, one after
      another: each row becomes a translation with the row's language, the
      uploaded URL and the file's name; any failed upload fails the whole. */
  function UploadAll(rows: seq<Row>, upload: File -> Result<string, string>): (r: Result<seq<Translation>, string>)
    requires forall i :: 0 <= i < |rows| ==> rows[i].file.Some?
    ensures r.Success? <==> forall i :: 0 <= i < |rows| ==> upload(rows[i].file.value).Success?
    ensures r.Success? ==> |r.value| == |rows|
    ensures r.Success? ==> forall i :: 0 <= i < |rows| ==>
      r.value[i] == Translation(rows[i].language, upload(rows[i].file.value).value, rows[i].file.value.name)
    ensures r.Failure? ==> exists i :: 0 <= i < |rows| && upload(rows[i].file.value) == Failure(r.error)
    decreases |rows|
  {
    if |rows| == 0 then Success([])
    else
      match upload(rows[0].file.value)
      case Failure(e) => Failure(e)
      case Success(url) =>
        match UploadAll(rows[1..], upload)
        case Failure(e) => Failure(e)
        case Success(rest) => Success([Translation(rows[0].language, url, rows[0].file.value.name)] + rest)
  }

  /** The record handed to `addResource`. */
  datatype InsertPayload = InsertPayload(
    fields: Fields,
    file_url: string,
    file_name: string,
    qr_code: string,
    translations: seq<Translation>,
    icon_url: Option<string>)

  /** The document columns an update sets when new files were uploaded. */
  datatype FileColumns = FileColumns(file_url: string, file_name: string, qr_code: string, translations: seq<Translation>)

  /** The `updates` object handed to `updateResource`; an absent key is `None`. */
  datatype UpdatePayload = UpdatePayload(fields: Fields, icon_url: Option<string>, files: Option<FileColumns>)

  datatype Request = Insert(insert: InsertPayload) | Update(id: string, update: UpdatePayload)

  /** Why a submit stops before reaching the store. */
  datatype SubmitError = NeedTranslation | UploadFailed(message: string)

  /** `...(iconUrl ? { icon_url: iconUrl } : {})`: an empty URL is falsy and
      adds no key. */
  function IconKey(iconUrl: Option<string>): (k: Option<string>)
    ensures k.Some? <==> iconUrl.Some? && iconUrl.value != ""
    ensures k.Some? ==> k == iconUrl
  {
    if iconUrl.Some? && iconUrl.value != "" then iconUrl else None
  }

  /** The icon upload, run first when an icon is picked. */
  function UploadPickedIcon(icon: Option<File>, uploadIcon: File -> Result<string, string>): (r: Result<Option<string>, string>)
    ensures icon.None? ==> r == Success(None)
    ensures icon.Some? ==> (r.Success? <==> uploadIcon(icon.value).Success?)
    ensures icon.Some? && r.Success? ==> r.value == Some(uploadIcon(icon.value).value)
  {
    match icon
    case None => Success(None)
    case Some(f) =>
      match uploadIcon(f)
      case Failure(e) => Failure(e)
      case Success(url) => Success(Some(url))
  }

  /** The main-file columns: taken from the first uploaded translation, with
      the QR code pointing at its URL. */
  function MainFile(uploaded: seq<Translation>): (c: FileColumns)
    requires |uploaded| > 0
    ensures c.file_url == uploaded[0].file_url && c.file_name == uploaded[0].file_name
    ensures c.translations == uploaded
    ensures c.qr_code == QrCode.GenerateQRCode(uploaded[0].file_url)
    ensures FormUrlEncoded.Get(FormUrlEncoded.Parse(QrCode.QueryOf(c.qr_code)), "data") == Some(uploaded[0].file_url)
  {
    QrCode.DataRoundTrip(uploaded[0].file_url);
    FileColumns(uploaded[0].file_url, uploaded[0].file_name, QrCode.GenerateQRCode(uploaded[0].file_url), uploaded)
  }

  /** The document uploads and the request, once the icon upload has given
      `iconUrl`: the request is built exactly when every valid row's upload
      succeeds, and a failure carries a failed row's error. */
  function RequestAfterIcon(form: Form, iconUrl: Option<string>, uploadFile: File -> Result<string, string>): (r: Result<Request, SubmitError>)
    requires form.editing.Some? || |ValidTranslations(form.rows)| > 0
    ensures var valid := ValidTranslations(form.rows);
      r.Success? <==> forall i :: 0 <= i < |valid| ==> uploadFile(valid[i].file.value).Success?
    ensures r.Failure? ==> r.error.UploadFailed? && var valid := ValidTranslations(form.rows);
      exists i :: 0 <= i < |valid| && uploadFile(valid[i].file.value) == Failure(r.error.message)
    ensures r.Success? ==> (r.value.Insert? <==> form.editing.None?)
    ensures r.Success? && r.value.Update? ==> r.value.id == form.editing.value.id
  {
    var valid := ValidTranslations(form.rows);
    if form.editing.Some? then
      if |valid| == 0 then
        Success(Update(form.editing.value.id, UpdatePayload(form.fields, IconKey(iconUrl), None)))
      else
        match UploadAll(valid, uploadFile)
        case Failure(e) => Failure(UploadFailed(e))
        case Success(uploaded) =>
          Success(Update(form.editing.value.id, UpdatePayload(form.fields, IconKey(iconUrl), Some(MainFile(uploaded)))))
    else
      match UploadAll(valid, uploadFile)
      case Failure(e) => Failure(UploadFailed(e))
      case Success(uploaded) =>
        var main := MainFile(uploaded);
        Success(Insert(InsertPayload(form.fields, main.file_url, main.file_name, main.qr_code, uploaded, IconKey(iconUrl))))
  }

  /** The request `handleAddResource` sends, or why it sends none. An add
      needs a valid row and stops before any upload without one; an edit
      never does. The icon is uploaded first, then the documents of the
      valid rows; an edit sets the document columns only when there are
      new files. Past the add-mode check, the request is built exactly when
      every upload it runs succeeds; a failed icon upload is reported before
      any document upload, and otherwise the error is a failed row's. */
  function BuildRequest(form: Form, uploadFile: File -> Result<string, string>, uploadIcon: File -> Result<string, string>): (r: Result<Request, SubmitError>)
    ensures r == Failure(NeedTranslation) <==> form.editing.None? && |ValidTranslations(form.rows)| == 0
    ensures r.Success? ==> (r.value.Insert? <==> form.editing.None?)
    ensures r.Success? && r.value.Update? ==> r.value.id == form.editing.value.id
    ensures r != Failure(NeedTranslation) ==>
      var valid := ValidTranslations(form.rows);
      (r.Success? <==>
        (form.icon.Some? ==> uploadIcon(form.icon.value).Success?) &&
        forall i :: 0 <= i < |valid| ==> uploadFile(valid[i].file.value).Success?)
    ensures r != Failure(NeedTranslation) && form.icon.Some? && uploadIcon(form.icon.value).Failure? ==>
      r == Failure(UploadFailed(uploadIcon(form.icon.value).error))
    ensures r.Failure? && r != Failure(NeedTranslation) && (form.icon.None? || uploadIcon(form.icon.value).Success?) ==>
      var valid := ValidTranslations(form.rows);
      exists i :: 0 <= i < |valid| && uploadFile(valid[i].file.value) == Failure(r.error.message)
  {
    var valid := ValidTranslations(form.rows);
    if form.editing.None? && |valid| == 0 then Failure(NeedTranslation)
    else
      match UploadPickedIcon(form.icon, uploadIcon)
      case Failure(e) => Failure(UploadFailed(e))
      case Success(iconUrl) => RequestAfterIcon(form, iconUrl, uploadFile)
  }

  /** Whether an add is refused for lack of a valid row does not depend on
      what the uploads would do: the check comes before any of them. */
  lemma RejectionPrecedesUploads(form: Form,
                                 uploadFile1: File -> Result<string, string>, uploadIcon1: File -> Result<string, string>,
                                 uploadFile2: File -> Result<string, string>, uploadIcon2: File -> Result<string, string>)
    ensures BuildRequest(form, uploadFile1, uploadIcon1) == Failure(NeedTranslation) <==>
            BuildRequest(form, uploadFile2, uploadIcon2) == Failure(NeedTranslation)
  {
  }

  /** Entering edit mode and submitting straight away sends the stored fields
      and nothing else: no icon key and no document columns. */
  lemma UnchangedEditResubmit(form: Form, res: Resource,
                              uploadFile: File -> Result<string, string>, uploadIcon: File -> Result<string, string>)
    ensures BuildRequest(EditResource(form, res), uploadFile, uploadIcon) ==
      Success(Update(res.id, UpdatePayload(Fields(res.title, res.description, res.category, res.kind), None, None)))
  {
    EditedRowsAreNotValid(form, res);
  }

  /** An insert carries the form's fields and one uploaded translation per valid row, in order,
      with the row's language and file name; its main file is the first of
      them, and its QR code decodes to that file's URL. */
  lemma InsertFollowsValidRows(form: Form, uploadFile: File -> Result<string, string>, uploadIcon: File -> Result<string, string>)
    ensures BuildRequest(form, uploadFile, uploadIcon).Success? && form.editing.None? ==>
      var p := BuildRequest(form, uploadFile, uploadIcon).value.insert;
      var valid := ValidTranslations(form.rows);
      && p.fields == form.fields
      && |p.translations| == |valid| > 0
      && (forall i :: 0 <= i < |valid| ==>
            p.translations[i].language == valid[i].language
            && p.translations[i].file_name == valid[i].file.value.name
            && p.translations[i].file_url == uploadFile(valid[i].file.value).value)
      && p.file_url == p.translations[0].file_url
      && p.file_name == p.translations[0].file_name
      && p.qr_code == QrCode.GenerateQRCode(p.file_url)
      && FormUrlEncoded.Get(FormUrlEncoded.Parse(QrCode.QueryOf(p.qr_code)), "data") == Some(p.file_url)
  {
    var r := BuildRequest(form, uploadFile, uploadIcon);
    if r.Success? && form.editing.None? {
      var iconUrl := UploadPickedIcon(form.icon, uploadIcon).value;
      var uploaded := UploadAll(ValidTranslations(form.rows), uploadFile);
      assert r == RequestAfterIcon(form, iconUrl, uploadFile);
      assert uploaded.Success?;
    }
  }

  /** An update carries the form's fields; it sets the document columns
      exactly when some row is valid, and then they follow the valid rows as
      an insert's do. */
  lemma UpdateFollowsValidRows(form: Form, uploadFile: File -> Result<string, string>, uploadIcon: File -> Result<string, string>)
    ensures BuildRequest(form, uploadFile, uploadIcon).Success? && form.editing.Some? ==>
      var p := BuildRequest(form, uploadFile, uploadIcon).value.update;
      var valid := ValidTranslations(form.rows);
      && p.fields == form.fields
      && (p.files.Some? <==> |valid| > 0)
      && (p.files.Some? ==>
            && |p.files.value.translations| == |valid|
            && (forall i :: 0 <= i < |valid| ==>
                  p.files.value.translations[i].language == valid[i].language
                  && p.files.value.translations[i].file_name == valid[i].file.value.name
                  && p.files.value.translations[i].file_url == uploadFile(valid[i].file.value).value)
            && p.files.value.file_url == p.files.value.translations[0].file_url
            && p.files.value.file_name == p.files.value.translations[0].file_name
            && p.files.value.qr_code == QrCode.GenerateQRCode(p.files.value.file_url))
  {
    var r := BuildRequest(form, uploadFile, uploadIcon);
    if r.Success? && form.editing.Some? {
      var iconUrl := UploadPickedIcon(form.icon, uploadIcon).value;
      assert r == RequestAfterIcon(form, iconUrl, uploadFile);
      if |ValidTranslations(form.rows)| > 0 {
        var uploaded := UploadAll(ValidTranslations(form.rows), uploadFile);
        assert uploaded.Success?;
        assert r.value.update.files == Some(MainFile(uploaded.value));
      }
    }
  }

  /** The request's `icon_url` key is present exactly when an icon was picked
      and its upload returned a non-empty URL, and then it is that URL. */
  lemma IconKeyIffUploaded(form: Form, uploadFile: File -> Result<string, string>, uploadIcon: File -> Result<string, string>)
    ensures BuildRequest(form, uploadFile, uploadIcon).Success? ==>
      var req := BuildRequest(form, uploadFile, uploadIcon).value;
      var key := if req.Insert? then req.insert.icon_url else req.update.icon_url;
      && (key.Some? <==> form.icon.Some? && uploadIcon(form.icon.value).value != "")
      && (key.Some? ==> key.value == uploadIcon(form.icon.value).value)
  {
    var r := BuildRequest(form, uploadFile, uploadIcon);
    if r.Success? {
      var iconUrl := UploadPickedIcon(form.icon, uploadIcon).value;
      assert r == RequestAfterIcon(form, iconUrl, uploadFile);
    }
  }

  const NeedTranslationAlert: string := "Please add at least one translation."

  /** The alert of the `catch` clause. */
  function FailedSubmitAlert(editing: bool): string {
    if editing then "Failed to update resource. Please try again."
    else "Failed to add resource. Please try again."
  }

  /** `handleAddResource` end to end: `save` is the store call
      (`addResource` or `updateResource`). A sent request that the store
      accepts resets the form; every failure keeps the form as it was and
      raises an alert. */
  function HandleSubmit(form: Form, uploadFile: File -> Result<string, string>, uploadIcon: File -> Result<string, string>,
                        save: Request -> Result<(), string>): (out: (Form, Option<string>))
    ensures out.1.None? <==> BuildRequest(form, uploadFile, uploadIcon).Success? && save(BuildRequest(form, uploadFile, uploadIcon).value).Success?
    ensures out.1.None? ==> out.0 == ResetForm(form)
    ensures out.1.Some? ==> out.0 == form
    ensures out.1 == Some(NeedTranslationAlert) <==> form.editing.None? && |ValidTranslations(form.rows)| == 0
    ensures out.1.Some? && out.1 != Some(NeedTranslationAlert) ==> out.1 == Some(FailedSubmitAlert(form.editing.Some?))
  {
    match BuildRequest(form, uploadFile, uploadIcon)
    case Failure(NeedTranslation) => (form, Some(NeedTranslationAlert))
    case Failure(UploadFailed(_)) => (form, Some(FailedSubmitAlert(form.editing.Some?)))
    case Success(req) =>
      match save(req)
      case Failure(_) => (form, Some(FailedSubmitAlert(form.editing.Some?)))
      case Success(_) => (ResetForm(form), None)
  }

  /** The store call as the panel wires it: `addResource` comes from the hook,
      but `updateResource` is not among the hook's results, so calling it
      throws a `TypeError` whose text the engine supplies. */
  function WiredSave(addResource: InsertPayload -> Result<(), string>, typeErrorMessage: string): Request -> Result<(), string> {
    (req: Request) => if req.Insert? then addResource(req.insert) else Failure(typeErrorMessage)
  }

  /** As wired, no edit can be saved: whatever the uploads do, an edit submit
      ends with the update alert and the form kept. */
  lemma EditSubmitAlwaysFails(form: Form, uploadFile: File -> Result<string, string>, uploadIcon: File -> Result<string, string>,
                              addResource: InsertPayload -> Result<(), string>, typeErrorMessage: string)
    requires form.editing.Some?
    ensures HandleSubmit(form, uploadFile, uploadIcon, WiredSave(addResource, typeErrorMessage)) ==
      (form, Some("Failed to update resource. Please try again."))
  {
  }

  /** The store call with an `updateResource` supplied: inserts go to
      `addResource`, updates to `updateResource` with the row's id. */
  function IntendedSave(addResource: InsertPayload -> Result<(), string>,
                        updateResource: (string, UpdatePayload) -> Result<(), string>): Request -> Result<(), string> {
    (req: Request) => if req.Insert? then addResource(req.insert) else updateResource(req.id, req.update)
  }

  /** With `updateResource` supplied, an edit whose uploads succeed and whose
      update the store accepts resets the form with no alert, and a refused
      update keeps the form and raises the update alert. */
  lemma EditSubmitWithUpdate(form: Form, uploadFile: File -> Result<string, string>, uploadIcon: File -> Result<string, string>,
                             addResource: InsertPayload -> Result<(), string>,
                             updateResource: (string, UpdatePayload) -> Result<(), string>)
    requires form.editing.Some?
    ensures var req := BuildRequest(form, uploadFile, uploadIcon);
      var out := HandleSubmit(form, uploadFile, uploadIcon, IntendedSave(addResource, updateResource));
      && (req.Success? && updateResource(form.editing.value.id, req.value.update).Success? ==> out == (ResetForm(form), None))
      && (req.Success? && updateResource(form.editing.value.id, req.value.update).Failure? ==>
            out == (form, Some("Failed to update resource. Please try again.")))
  {
  }

  /** A form just reset cannot be submitted: it is in add mode with no rows. */
  lemma ResetFormIsRejected(form: Form, uploadFile: File -> Result<string, string>, uploadIcon: File -> Result<string, string>)
    ensures BuildRequest(ResetForm(form), uploadFile, uploadIcon) == Failure(NeedTranslation)
  {
  }
}

=== FILE: browse.dfy ===
/** The browse page of `src/App.tsx`: the category chips, the search and
    filter predicate, and the split into manuals and brochures. */
module Browse {
  import opened Seqs
  import opened Types
  import Text
  import ResourceStore

  /** The type tabs: everything, or one kind. */
  datatype TypeFilter = AnyType | OnlyType(kind: ResourceType)

  /** The page's filter controls. */
  datatype Query = Query(search: string, category: string, kind: TypeFilter)

  /** The wildcard chip, which is also the initial category selection. */
  const AllCategories: string := "all"

  /** `resources.map(r => r.category)`. */
  function CategoryList(rs: seq<Resource>): (cs: seq<string>)
    ensures |cs| == |rs| && forall i :: 0 <= i < |rs| ==> cs[i] == rs[i].category
  {
    seq(|rs|, i requires 0 <= i < |rs| => rs[i].category)
  }

  /** `['all', ...new Set(resources.map(r => r.category))]`: the wildcard, then
      each category once, in order of first appearance. */
  function Categories(rs: seq<Resource>): (cats: seq<string>)
    ensures |cats| >= 1 && cats[0] == AllCategories
    ensures NoDups(cats[1..])
    ensures forall c :: c in cats[1..] <==> exists i :: 0 <= i < |rs| && rs[i].category == c
    ensures forall i, j :: 1 <= i < j < |cats| ==>
      IndexOf(CategoryList(rs), cats[i]) < IndexOf(CategoryList(rs), cats[j])
  {
    var distinct := Dedup(CategoryList(rs));
    assert ([AllCategories] + distinct)[1..] == distinct;
    [AllCategories] + distinct
  }

  /** The chip list repeats `'all'` exactly when some resource's category is
      literally `'all'`. */
  lemma CategoriesRepeatAll(rs: seq<Resource>)
    ensures !NoDups(Categories(rs)) <==> exists i :: 0 <= i < |rs| && rs[i].category == AllCategories
  {
    var cats := Categories(rs);
    if exists i :: 0 <= i < |rs| && rs[i].category == AllCategories {
      assert AllCategories in cats[1..];
      var j :| 0 <= j < |cats[1..]| && cats[1..][j] == AllCategories;
      assert cats[0] == cats[j + 1];
    }
    if AllCategories !in cats[1..] {
      forall i, j | 0 <= i < j < |cats|
        ensures cats[i] != cats[j]
      {
        assert cats[j] == cats[1..][j - 1];
        if i > 0 {
          assert cats[i] == cats[1..][i - 1];
        }
      }
    }
  }

  /** Case-insensitive substring match on the title or the description. */
  predicate MatchesSearch(r: Resource, search: string) {
    var q := Text.Lower(search);
    Text.Contains(Text.Lower(r.title), q) || Text.Contains(Text.Lower(r.description), q)
  }

  /** The predicate of `filteredResources`. */
  predicate Matches(r: Resource, q: Query) {
    && MatchesSearch(r, q.search)
    && (q.category == AllCategories || r.category == q.category)
    && (q.kind.AnyType? || r.kind == q.kind.kind)
  }

  /** `filteredResources`. */
  function FilterResources(rs: seq<Resource>, q: Query): (r: seq<Resource>)
    ensures forall x :: x in r <==> x in rs && Matches(x, q)
    ensures IsSubseq(r, rs)
    ensures forall x :: multiset(r)[x] == if Matches(x, q) then multiset(rs)[x] else 0
  {
    FilterSubseq(rs, (x: Resource) => Matches(x, q));
    FilterMultiset(rs, (x: Resource) => Matches(x, q));
    Filter(rs, (x: Resource) => Matches(x, q))
  }

  /** A resource is shown exactly when the lower-cased query occurs in its
      lower-cased title or description, its category is the selected one (or
      `'all'` is selected), and its type is the selected one (or all types are). */
  lemma FilterKeepsExactly(rs: seq<Resource>, q: Query, r: Resource)
    ensures r in FilterResources(rs, q) <==>
      && r in rs
      && (Text.Occurs(Text.Lower(r.title), Text.Lower(q.search))
          || Text.Occurs(Text.Lower(r.description), Text.Lower(q.search)))
      && (q.category == "all" || r.category == q.category)
      && (q.kind == AnyType || q.kind == OnlyType(r.kind))
  {
    Text.ContainsIff(Text.Lower(r.title), Text.Lower(q.search));
    Text.ContainsIff(Text.Lower(r.description), Text.Lower(q.search));
    assert (q.kind.AnyType? || r.kind == q.kind.kind) <==> (q.kind == AnyType || q.kind == OnlyType(r.kind));
    assert r in FilterResources(rs, q) <==> r in rs && Matches(r, q);
  }

  /** With no search text and both selectors on "all", everything is shown. */
  lemma EmptyQueryKeepsAll(rs: seq<Resource>)
    ensures FilterResources(rs, Query("", AllCategories, AnyType)) == rs
  {
    var q := Query("", AllCategories, AnyType);
    forall i | 0 <= i < |rs|
      ensures Matches(rs[i], q)
    {
      Text.ContainsEmpty(Text.Lower(rs[i].title));
    }
    FilterAll(rs, (x: Resource) => Matches(x, q));
  }

  /** Applying the same filter to its own output changes nothing. */
  lemma FilterResourcesIdempotent(rs: seq<Resource>, q: Query)
    ensures FilterResources(FilterResources(rs, q), q) == FilterResources(rs, q)
  {
    FilterIdempotent(rs, (x: Resource) => Matches(x, q));
  }

  predicate IsManual(r: Resource) {
    r.kind == Manual
  }

  predicate IsBrochure(r: Resource) {
    r.kind == Brochure
  }

  /** `manuals`. */
  function Manuals(shown: seq<Resource>): (ms: seq<Resource>)
    ensures forall x :: x in ms <==> x in shown && x.kind == Manual
  {
    Filter(shown, IsManual)
  }

  /** `brochures`. */
  function Brochures(shown: seq<Resource>): (bs: seq<Resource>)
    ensures forall x :: x in bs <==> x in shown && x.kind == Brochure
  {
    Filter(shown, IsBrochure)
  }

  /** Every shown resource lands in exactly one of the two sections, and each
      section keeps the shown order. */
  lemma SectionsPartition(shown: seq<Resource>)
    ensures multiset(Manuals(shown)) + multiset(Brochures(shown)) == multiset(shown)
    ensures IsSubseq(Manuals(shown), shown) && IsSubseq(Brochures(shown), shown)
  {
    FilterPartition(shown, IsManual, IsBrochure);
    FilterSubseq(shown, IsManual);
    FilterSubseq(shown, IsBrochure);
  }

  /** What the page shows for the hook's state. */
  datatype Page =
    | LoadingPage
    | ErrorPage(message: string)
    | ListPage(categories: seq<string>, manuals: seq<Resource>, brochures: seq<Resource>)

  /** The page: the spinner while loading, the error when there is a non-empty
      one (`if (error)`), and the two sections otherwise. */
  function Render(st: ResourceStore.HookState, q: Query): (p: Page)
    ensures st.loading <==> p.LoadingPage?
    ensures p.ErrorPage? <==> !st.loading && st.error.Some? && st.error.value != ""
    ensures p.ErrorPage? ==> p.message == st.error.value
    ensures p.ListPage? ==> multiset(p.manuals) + multiset(p.brochures) == multiset(FilterResources(st.resources, q))
    ensures p.ListPage? ==> p.categories == Categories(st.resources)
    ensures p.ListPage? ==>
      p.manuals == Manuals(FilterResources(st.resources, q)) && p.brochures == Brochures(FilterResources(st.resources, q))
  {
    if st.loading then LoadingPage
    else if st.error.Some? && st.error.value != "" then ErrorPage(st.error.value)
    else
      var shown := FilterResources(st.resources, q);
      SectionsPartition(shown);
      ListPage(Categories(st.resources), Manuals(shown), Brochures(shown))
  }

  /** Every failed fetch among `events` yields a non-empty message. */
  predicate FetchErrorsHaveText(events: seq<ResourceStore.Event>) {
    forall i :: 0 <= i < |events| && events[i].Fetch? && events[i].fetched.FetchErr? ==>
      MessageOr(events[i].fetched.err, ResourceStore.FetchFallbackMessage) != ""
  }

  /** Once the hook holds a non-empty error, the page stays on the error
      screen through later refetches (successful or not), adds and deletes,
      as long as later failures carry text: no transition clears the error. */
  lemma {:induction false} ErrorPageIsSticky(st: ResourceStore.HookState, events: seq<ResourceStore.Event>, q: Query)
    requires !st.loading && st.error.Some? && st.error.value != ""
    requires FetchErrorsHaveText(events)
    ensures Render(ResourceStore.Run(st, events), q).ErrorPage?
    decreases |events|
  {
    if |events| > 0 {
      var next := ResourceStore.Apply(st, events[0]);
      assert FetchErrorsHaveText(events[1..]) by {
        forall i | 0 <= i < |events[1..]| && events[1..][i].Fetch? && events[1..][i].fetched.FetchErr?
          ensures MessageOr(events[1..][i].fetched.err, ResourceStore.FetchFallbackMessage) != ""
        {
          assert events[1..][i] == events[i + 1];
        }
      }
      ErrorPageIsSticky(next, events[1..], q);
    }
  }
}

=== FILE: file_upload.dfy ===
/** Storage path rules of `src/utils/fileUpload.ts`: how an uploaded file is
    named inside the `resources` bucket, how a public URL is mapped back to that
    name, and the icon type and size guard. The storage service itself is a
    pair of parameters: the upload's error (if any) for a path, and the public
    URL of a path. The unique part of a generated name (clock and random
    digits in the source) is a parameter too. */
module FileUpload {
  import opened Wrappers
  import opened Seqs
  import opened Types
  import Text

  const StorageBucket: string := "resources"
  const IconDirectory: string := "icons"
  const IconAllowedMimeTypes: seq<string> := ["image/png", "image/jpeg", "image/webp"]
  const IconMaxFileSize: nat := 2 * 1024 * 1024

  const InvalidIconTypeMessage: string := "Invalid icon file type. Allowed types are PNG, JPG, and WEBP."
  const IconTooLargeMessage: string := "Icon file exceeds the maximum size of 2 MB."

  /** What an icon must be, written out: a PNG, JPEG or WEBP image of at most
      2 MiB (2,097,152 bytes). */
  predicate IconAcceptable(f: File) {
    && (f.mime == "image/png" || f.mime == "image/jpeg" || f.mime == "image/webp")
    && f.size <= 2097152
  }

  /** Why an icon is refused. */
  datatype IconError = InvalidType | TooLarge

  /** The guard `uploadIcon` applies before touching storage: type first, then size. */
  function CheckIcon(f: File): (r: Option<IconError>)
    ensures r.None? <==> IconAcceptable(f)
    ensures r == Some(InvalidType) <==> !IconAcceptable(File(f.name, f.mime, 0))
  {
    if f.mime !in IconAllowedMimeTypes then Some(InvalidType)
    else if f.size > IconMaxFileSize then Some(TooLarge)
    else None
  }

  /** The size limit is inclusive: exactly 2 MiB passes, one byte more does not. */
  lemma IconSizeBoundary(name: string, mime: string)
    requires mime in IconAllowedMimeTypes
    ensures CheckIcon(File(name, mime, 2097152)).None?
    ensures CheckIcon(File(name, mime, 2097153)) == Some(TooLarge)
  {
  }

  /** `name.split('.').pop().toLowerCase()`: the lower-cased text after the
      last `.`, or the whole name lower-cased when there is no `.`. */
  function Extension(name: string): (ext: string)
    ensures '.' !in ext
    ensures |ext| <= |name| && ext == Text.Lower(name[|name| - |ext|..])
    ensures |ext| < |name| ==> name[|name| - |ext| - 1] == '.'
    ensures '.' !in name ==> ext == Text.Lower(name)
  {
    var parts := Split(name, '.');
    var raw := parts[|parts| - 1];
    SplitLast(name, '.');
    assert name[|name| - |raw|..] == raw;
    Text.Lower(raw)
  }

  /** A directory counts only when it is given and non-empty (`directory ? … : …`). */
  predicate HasDirectory(directory: Option<string>) {
    directory.Some? && directory.value != ""
  }

  /** The file's stored name: the unique part, then `.` and the extension
      unless the extension is empty. */
  function NormalizedFileName(name: string, unique: string): (r: string)
    ensures Extension(name) == "" ==> r == unique
    ensures Extension(name) != "" ==> r == unique + "." + Extension(name)
  {
    var ext := Extension(name);
    if ext != "" then unique + "." + ext else unique
  }

  /** `generateFilePath`: the stored name, under `directory/` when one is given. */
  function GenerateFilePath(name: string, unique: string, directory: Option<string>): (path: string)
    ensures HasDirectory(directory) ==> path == directory.value + "/" + NormalizedFileName(name, unique)
    ensures !HasDirectory(directory) ==> path == NormalizedFileName(name, unique)
  {
    var normalized := NormalizedFileName(name, unique);
    if HasDirectory(directory) then directory.value + "/" + normalized else normalized
  }

  /** A name whose last `.`-piece is already lower-case has that piece as its
      extension. */
  lemma ExtensionIsLastPiece(name: string, last: string)
    requires var parts := Split(name, '.'); parts[|parts| - 1] == last
    requires Text.Lower(last) == last
    ensures Extension(name) == last
  {
  }

  /** A name ending in `.` and a dot-free lower-case word has that word as
      its extension. */
  lemma ExtensionAfterDot(stem: string, ext: string)
    requires '.' !in ext && Text.Lower(ext) == ext
    ensures Extension(stem + ['.'] + ext) == ext
  {
    LastPieceAfterSep(stem, '.', ext);
    ExtensionIsLastPiece(stem + ['.'] + ext, ext);
  }

  /** The generated path keeps the file's extension: reading the extension of
      the stored path gives the extension of the original name. */
  lemma GeneratedPathKeepsExtension(name: string, unique: string, directory: Option<string>)
    requires Extension(name) != ""
    requires '.' !in unique
    ensures Extension(GenerateFilePath(name, unique, directory)) == Extension(name)
  {
    var ext := Extension(name);
    var stem := if HasDirectory(directory) then directory.value + "/" + unique else unique;
    assert GenerateFilePath(name, unique, directory) == stem + ['.'] + ext;
    Text.LowerIdempotent(name[|name| - |ext|..]);
    ExtensionAfterDot(stem, ext);
  }

  predicate NonEmpty(s: string) {
    s != ""
  }

  /** `pathname.split('/').filter(Boolean)`: the non-empty `/`-pieces of the
      pathname, in order, each as often as it occurs. */
  function Segments(pathname: string): (segs: seq<string>)
    ensures forall i :: 0 <= i < |segs| ==> segs[i] != "" && '/' !in segs[i]
    ensures forall s :: s in segs <==> s in Split(pathname, '/') && s != ""
    ensures IsSubseq(segs, Split(pathname, '/'))
    ensures forall s :: multiset(segs)[s] == if s != "" then multiset(Split(pathname, '/'))[s] else 0
  {
    FilterSubseq(Split(pathname, '/'), NonEmpty);
    FilterMultiset(Split(pathname, '/'), NonEmpty);
    Filter(Split(pathname, '/'), NonEmpty)
  }

  /** `seg` sits at position `i` of `pathname` as its last non-empty
      `/`-piece: at the start or after a `/`, with only `/`s after it. */
  ghost predicate LastSegmentAt(pathname: string, seg: string, i: int) {
    0 <= i <= |pathname| - |seg| && pathname[i..i + |seg|] == seg
    && (i == 0 || pathname[i - 1] == '/')
    && forall j :: i + |seg| <= j < |pathname| ==> pathname[j] == '/'
  }

  /** `seg` is the last non-empty `/`-piece of `pathname`. */
  ghost predicate IsLastSegment(pathname: string, seg: string) {
    exists i :: LastSegmentAt(pathname, seg, i)
  }

  /** A trailing `/` adds no segment. */
  lemma TrailingSlashSegments(u: string)
    ensures Segments(u + ['/']) == Segments(u)
  {
    SplitTrailingSep(u, '/');
    FilterAppend(Split(u, '/'), [[]], NonEmpty);
    assert Filter([[]], NonEmpty) == [];
  }

  /** A trailing `/` keeps the last non-empty piece where it was. */
  lemma TrailingSlashLastSegment(u: string, seg: string, i: int)
    requires LastSegmentAt(u, seg, i)
    ensures LastSegmentAt(u + ['/'], seg, i)
  {
    var p := u + ['/'];
    assert p[i..i + |seg|] == u[i..i + |seg|];
  }

  /** The last of the segments is the pathname's last non-empty `/`-piece. */
  lemma {:induction false} LastSegment(pathname: string)
    ensures var segs := Segments(pathname); |segs| > 0 ==> IsLastSegment(pathname, segs[|segs| - 1])
    decreases |pathname|
  {
    var segs := Segments(pathname);
    if |segs| > 0 && |pathname| > 0 {
      var n := |pathname|;
      var u := pathname[..n - 1];
      if pathname[n - 1] == '/' {
        assert pathname == u + ['/'];
        TrailingSlashSegments(u);
        LastSegment(u);
        var i :| LastSegmentAt(u, segs[|segs| - 1], i);
        TrailingSlashLastSegment(u, segs[|segs| - 1], i);
      } else {
        LastPieceIsLastSegment(pathname);
      }
    }
  }

  /** A pathname that does not end in `/` has its last `/`-piece as its last
      segment. */
  lemma LastPieceIsLastSegment(pathname: string)
    requires |pathname| > 0 && pathname[|pathname| - 1] != '/'
    ensures var segs := Segments(pathname); |segs| > 0 && IsLastSegment(pathname, segs[|segs| - 1])
  {
    var n := |pathname|;
    var parts := Split(pathname, '/');
    var last := parts[|parts| - 1];
    SplitLast(pathname, '/');
    assert last != [];
    FilterKeepsLast(parts, NonEmpty);
    var i := n - |last|;
    assert pathname[i..i + |last|] == last;
    assert LastSegmentAt(pathname, last, i);
  }

  /** Position `k` holds the first `resources` segment. */
  predicate FirstBucketAt(segs: seq<string>, k: int) {
    0 <= k < |segs| && segs[k] == StorageBucket && StorageBucket !in segs[..k]
  }

  /** The storage path named by a URL's segments: whatever follows the first
      `resources` segment, joined by `/`; without such a segment, the last
      segment; with no segments at all, nothing. */
  function PathFromSegments(segs: seq<string>): (r: Option<string>)
    ensures r.None? <==> |segs| == 0
    ensures StorageBucket !in segs && r.Some? ==> r.value == segs[|segs| - 1]
    ensures StorageBucket in segs ==> exists k :: FirstBucketAt(segs, k) && r == Some(Join(segs[k + 1..], '/'))
  {
    var k := IndexOf(segs, StorageBucket);
    if k == -1 then
      if |segs| > 0 then Some(segs[|segs| - 1]) else None
    else
      assert FirstBucketAt(segs, k);
      Some(Join(segs[k + 1..], '/'))
  }

  /** The storage path for a URL whose parsed pathname is `pathname`. */
  function ExtractFromPathname(pathname: string): (r: Option<string>)
    ensures r.None? <==> |Segments(pathname)| == 0
    ensures StorageBucket !in Segments(pathname) && r.Some? ==> r.value != "" && '/' !in r.value
    ensures StorageBucket !in Segments(pathname) && r.Some? ==> IsLastSegment(pathname, r.value)
  {
    LastSegment(pathname);
    PathFromSegments(Segments(pathname))
  }

  /** `extractPathFromPublicUrl`. `pathname` is what the URL parser returns,
      `None` when it throws; then the text after the URL's last `/` is used:
      a slash-free suffix of the URL that is the whole URL or follows a `/`. */
  function ExtractPathFromPublicUrl(fileUrl: string, pathname: Option<string>): (r: Option<string>)
    ensures pathname.Some? ==> r == ExtractFromPathname(pathname.value)
    ensures pathname.None? ==> r.Some? && '/' !in r.value
    ensures pathname.None? ==> |r.value| <= |fileUrl| && r.value == fileUrl[|fileUrl| - |r.value|..]
    ensures pathname.None? && |r.value| < |fileUrl| ==> fileUrl[|fileUrl| - |r.value| - 1] == '/'
  {
    if pathname.Some? then ExtractFromPathname(pathname.value)
    else
      var parts := Split(fileUrl, '/');
      SplitLast(fileUrl, '/');
      Some(parts[|parts| - 1])
  }

  /** The first occurrence of `x` in `a + [x] + b` is at `|a|` when `a` lacks `x`. */
  lemma IndexOfAfter(a: seq<string>, x: string, b: seq<string>)
    requires x !in a
    ensures IndexOf(a + [x] + b, x) == |a|
  {
    var s := a + [x] + b;
    assert s[..|a|] == a;
    assert s[|a|] == x;
  }

  /** A path stored under the bucket is recovered from any pathname that lists
      some `resources`-free segments, then `resources`, then the path's own
      segments, provided those are non-empty. */
  lemma ExtractRoundTrip(prefix: seq<string>, p: string)
    requires forall i :: 0 <= i < |prefix| ==> '/' !in prefix[i] && prefix[i] != StorageBucket
    requires forall i :: 0 <= i < |Split(p, '/')| ==> Split(p, '/')[i] != ""
    ensures ExtractFromPathname(Join(prefix + [StorageBucket] + Split(p, '/'), '/')) == Some(p)
  {
    var pieces := Split(p, '/');
    var parts := prefix + [StorageBucket] + pieces;
    assert '/' !in StorageBucket;
    SplitJoin(parts, '/');
    FilterAppend(prefix + [StorageBucket], pieces, NonEmpty);
    FilterAppend(prefix, [StorageBucket], NonEmpty);
    FilterAll(pieces, NonEmpty);
    var kept := Filter(prefix, NonEmpty);
    assert Filter([StorageBucket], NonEmpty) == [StorageBucket];
    assert Segments(Join(parts, '/')) == kept + [StorageBucket] + pieces;
    IndexOfAfter(kept, StorageBucket, pieces);
    assert (kept + [StorageBucket] + pieces)[|kept| + 1..] == pieces;
    JoinSplit(p, '/');
  }

  /** Lower-casing keeps a `/`-free string `/`-free. */
  lemma LowerKeepsSlashFree(s: string)
    requires '/' !in s
    ensures '/' !in Text.Lower(s)
  {
    var l := Text.Lower(s);
    assert forall i :: 0 <= i < |l| ==> l[i] == Text.LowerChar(s[i]);
  }

  /** The path segments of a generated path: the directory (when given) and
      the stored name, both non-empty. */
  lemma GeneratedPathSegments(name: string, unique: string, directory: Option<string>)
    requires unique != "" && '/' !in unique && '/' !in name
    requires directory.Some? ==> '/' !in directory.value
    ensures var path := GenerateFilePath(name, unique, directory);
      var normalized := NormalizedFileName(name, unique);
      Split(path, '/') == (if HasDirectory(directory) then [directory.value, normalized] else [normalized])
  {
    var ext := Extension(name);
    LowerKeepsSlashFree(name[|name| - |ext|..]);
    var normalized := NormalizedFileName(name, unique);
    assert '/' !in normalized;
    SplitNoSep(normalized, '/');
    if HasDirectory(directory) {
      SplitPiece(directory.value, '/', normalized);
    }
  }

  /** A generated path has no empty segment. */
  lemma GeneratedPathPiecesNonEmpty(name: string, unique: string, directory: Option<string>)
    requires unique != "" && '/' !in unique && '/' !in name
    requires directory.Some? ==> '/' !in directory.value
    ensures var pieces := Split(GenerateFilePath(name, unique, directory), '/');
      forall i :: 0 <= i < |pieces| ==> pieces[i] != ""
  {
    var normalized := NormalizedFileName(name, unique);
    assert |normalized| >= |unique|;
    GeneratedPathSegments(name, unique, directory);
  }

  /** Every generated path qualifies for the round trip: its public URL maps
      back to it. */
  lemma GeneratedPathRoundTrip(prefix: seq<string>, name: string, unique: string, directory: Option<string>)
    requires forall i :: 0 <= i < |prefix| ==> '/' !in prefix[i] && prefix[i] != StorageBucket
    requires unique != "" && '/' !in unique && '/' !in name
    requires directory.Some? ==> '/' !in directory.value
    ensures var path := GenerateFilePath(name, unique, directory);
      ExtractFromPathname(Join(prefix + [StorageBucket] + Split(path, '/'), '/')) == Some(path)
  {
    GeneratedPathPiecesNonEmpty(name, unique, directory);
    ExtractRoundTrip(prefix, GenerateFilePath(name, unique, directory));
  }

  /** What `deleteFile` asks of storage. */
  datatype DeleteAction = SkipDelete | RemoveObject(path: string)

  /** `deleteFile`: removes the extracted path, or skips when there is none or
      it is empty. A failed removal is only logged, so it has no outcome here. */
  function DeleteFile(fileUrl: string, pathname: Option<string>): (a: DeleteAction)
    ensures a.RemoveObject? ==> a.path != "" && ExtractPathFromPublicUrl(fileUrl, pathname) == Some(a.path)
    ensures a.SkipDelete? ==> ExtractPathFromPublicUrl(fileUrl, pathname) in {None, Some("")}
  {
    var path := ExtractPathFromPublicUrl(fileUrl, pathname);
    if path.None? || path.value == "" then SkipDelete else RemoveObject(path.value)
  }

  /** A URL ending at the bucket names no object, so nothing is removed. */
  lemma DeleteSkipsBucketRoot(fileUrl: string, pathname: string, prefix: seq<string>)
    requires StorageBucket !in prefix
    requires Segments(pathname) == prefix + [StorageBucket]
    ensures DeleteFile(fileUrl, Some(pathname)) == SkipDelete
  {
    IndexOfAfter(prefix, StorageBucket, []);
    assert (prefix + [StorageBucket] + [])[|prefix| + 1..] == [];
    assert prefix + [StorageBucket] + [] == prefix + [StorageBucket];
  }

  /** Deleting by the public URL of a generated path removes exactly that path. */
  lemma DeleteRemovesGeneratedPath(fileUrl: string, prefix: seq<string>, name: string, unique: string, directory: Option<string>)
    requires forall i :: 0 <= i < |prefix| ==> '/' !in prefix[i] && prefix[i] != StorageBucket
    requires unique != "" && '/' !in unique && '/' !in name
    requires directory.Some? ==> '/' !in directory.value
    ensures var path := GenerateFilePath(name, unique, directory);
      DeleteFile(fileUrl, Some(Join(prefix + [StorageBucket] + Split(path, '/'), '/'))) == RemoveObject(path)
  {
    GeneratedPathRoundTrip(prefix, name, unique, directory);
  }

  /** The storage service as the client sees it: whether uploading to a path
      fails (and with what message), and the public URL of a path. */
  datatype Storage = Storage(uploadError: string -> Option<string>, publicUrl: string -> string)

  /** `uploadToStorage` followed by `getPublicUrl`. */
  function UploadToStorage(path: string, st: Storage): (r: Result<string, string>)
    ensures r.Success? <==> st.uploadError(path).None?
    ensures r.Success? ==> r.value == st.publicUrl(path)
    ensures r.Failure? ==> r.error == "Upload failed: " + st.uploadError(path).value
  {
    match st.uploadError(path)
    case Some(msg) => Failure("Upload failed: " + msg)
    case None => Success(st.publicUrl(path))
  }

  /** `uploadFile`: documents go to the bucket root under their stored name. */
  function UploadFile(file: File, unique: string, st: Storage): (r: Result<string, string>)
    ensures r == UploadToStorage(NormalizedFileName(file.name, unique), st)
  {
    UploadToStorage(GenerateFilePath(file.name, unique, None), st)
  }

  /** `uploadIcon`: the type guard, then the size guard, then an upload under `icons/`. */
  function UploadIcon(file: File, unique: string, st: Storage): (r: Result<string, string>)
    ensures !IconAcceptable(File(file.name, file.mime, 0)) ==> r == Failure(InvalidIconTypeMessage)
    ensures IconAcceptable(File(file.name, file.mime, 0)) && !IconAcceptable(file) ==> r == Failure(IconTooLargeMessage)
    ensures IconAcceptable(file) ==> r == UploadToStorage("icons/" + NormalizedFileName(file.name, unique), st)
  {
    match CheckIcon(file)
    case Some(InvalidType) => Failure(InvalidIconTypeMessage)
    case Some(TooLarge) => Failure(IconTooLargeMessage)
    case None =>
      var path := GenerateFilePath(file.name, unique, Some(IconDirectory));
      assert path == "icons/" + NormalizedFileName(file.name, unique);
      UploadToStorage(path, st)
  }
}

=== FILE: form_urlencoded.dfy ===
/** The `application/x-www-form-urlencoded` format of section 5 of the WHATWG
    URL Standard: the serializer behind `URLSearchParams.toString()` and the
    parser behind `new URLSearchParams(query)`. Names and values are UTF-8
    encoded, then every byte other than an ASCII alphanumeric or one of
    `*-._` is percent-encoded with upper-case hex, except that a space
    becomes `+`. */
module FormUrlEncoded {
  import opened Wrappers
  import opened Seqs
  import Utf8

  type byte = Utf8.byte

  const Ampersand: byte := 0x26
  const Equals: byte := 0x3D
  const Plus: byte := 0x2B
  const Percent: byte := 0x25
  const Space: byte := 0x20

  /** Bytes outside the form-urlencoded percent-encode set. */
  predicate Unreserved(b: byte) {
    || 0x30 <= b <= 0x39 || 0x41 <= b <= 0x5A || 0x61 <= b <= 0x7A
    || b == 0x2A || b == 0x2D || b == 0x2E || b == 0x5F
  }

  predicate IsHexDigit(b: byte) {
    0x30 <= b <= 0x39 || 0x41 <= b <= 0x46 || 0x61 <= b <= 0x66
  }

  /** The upper-case hex digit for `n`. */
  function HexDigit(n: int): (b: byte)
    requires 0 <= n < 16
    ensures IsHexDigit(b) && !(0x61 <= b <= 0x66)
  {
    if n < 10 then 0x30 + n else 0x37 + n
  }

  /** The value of a hex digit of either case. */
  function HexValue(b: byte): (n: int)
    requires IsHexDigit(b)
    ensures 0 <= n < 16
    ensures HexDigit(n) == b || 0x61 <= b <= 0x66
  {
    if b <= 0x39 then b - 0x30 else if b <= 0x46 then b - 0x37 else b - 0x57
  }

  /** The serializer's output for one byte. */
  function EncodeByte(b: byte): (r: seq<byte>)
    ensures 0 < |r| && forall i :: 0 <= i < |r| ==> r[i] < 0x80
    ensures Ampersand !in r && Equals !in r
    ensures b == Space <==> r == [Plus]
  {
    if b == Space then [Plus]
    else if Unreserved(b) then [b]
    else [Percent, HexDigit(b / 16), HexDigit(b % 16)]
  }

  /** The serializer's output for a byte sequence. */
  function EncodeBytes(bs: seq<byte>): (r: seq<byte>)
    ensures forall i :: 0 <= i < |r| ==> r[i] < 0x80
    ensures Ampersand !in r && Equals !in r
  {
    if |bs| == 0 then [] else EncodeByte(bs[0]) + EncodeBytes(bs[1..])
  }

  /** "Percent-encode after encoding" a name or a value, with space as plus. */
  function EncodeComponent(s: string): seq<byte> {
    EncodeBytes(Utf8.Encode(s))
  }

  /** One serialized tuple: `name=value`. */
  function SerializePair(p: (string, string)): (r: seq<byte>)
    ensures Ampersand !in r
  {
    EncodeComponent(p.0) + [Equals] + EncodeComponent(p.1)
  }

  /** The serializer: tuples separated by `&`. Every serialized tuple is
      non-empty, so "append `&` when the output is non-empty" is a join. */
  function SerializeBytes(pairs: seq<(string, string)>): seq<byte> {
    Join(seq(|pairs|, i requires 0 <= i < |pairs| => SerializePair(pairs[i])), Ampersand)
  }

  /** The serializer's output is ASCII. */
  lemma {:induction false} JoinAscii(parts: seq<seq<byte>>, sep: byte)
    requires sep < 0x80
    requires forall i, j :: 0 <= i < |parts| && 0 <= j < |parts[i]| ==> parts[i][j] < 0x80
    ensures forall k :: 0 <= k < |Join(parts, sep)| ==> Join(parts, sep)[k] < 0x80
    decreases |parts|
  {
    if |parts| > 1 {
      JoinAscii(parts[1..], sep);
    }
  }

  /** Reads ASCII bytes as a string. */
  function AsciiString(bs: seq<byte>): (s: string)
    requires forall i :: 0 <= i < |bs| ==> bs[i] < 0x80
    ensures |s| == |bs|
    ensures forall i :: 0 <= i < |bs| ==> s[i] as int == bs[i]
  {
    seq(|bs|, i requires 0 <= i < |bs| => bs[i] as char)
  }

  /** `URLSearchParams.toString()`. */
  function Serialize(pairs: seq<(string, string)>): string {
    var bs := SerializeBytes(pairs);
    JoinAscii(seq(|pairs|, i requires 0 <= i < |pairs| => SerializePair(pairs[i])), Ampersand);
    AsciiString(bs)
  }

  /** The UTF-8 encoding of an ASCII string is its bytes. */
  lemma {:induction false} EncodeAscii(bs: seq<byte>)
    requires forall i :: 0 <= i < |bs| ==> bs[i] < 0x80
    ensures Utf8.Encode(AsciiString(bs)) == bs
    decreases |bs|
  {
    if |bs| > 0 {
      EncodeAscii(bs[1..]);
      assert AsciiString(bs)[1..] == AsciiString(bs[1..]);
      assert bs == [bs[0]] + bs[1..];
    }
  }

  /** Replaces every `+` with a space. */
  function PlusToSpace(bs: seq<byte>): (r: seq<byte>)
    ensures |r| == |bs|
    ensures forall i :: 0 <= i < |bs| ==> r[i] == (if bs[i] == Plus then Space else bs[i])
  {
    seq(|bs|, i requires 0 <= i < |bs| => if bs[i] == Plus then Space else bs[i])
  }

  /** Percent-decoding: `%` followed by two hex digits becomes the byte they
      spell; every other byte, a lone `%` included, is kept. */
  function PercentDecode(bs: seq<byte>): seq<byte>
    decreases |bs|
  {
    if |bs| == 0 then []
    else if bs[0] == Percent && |bs| >= 3 && IsHexDigit(bs[1]) && IsHexDigit(bs[2]) then
      [HexValue(bs[1]) * 16 + HexValue(bs[2])] + PercentDecode(bs[3..])
    else [bs[0]] + PercentDecode(bs[1..])
  }

  /** Decoding a name or a value: `+` to space, percent-decode, UTF-8 decode
      without BOM. */
  function DecodeComponent(bs: seq<byte>): string {
    Utf8.Decode(PercentDecode(PlusToSpace(bs)))
  }

  /** Parses one non-empty `&`-separated sequence: the name runs up to the
      first `=`, the value is the rest (empty when there is no `=`). */
  function ParseTuple(bs: seq<byte>): (string, string) {
    var k := IndexOf(bs, Equals);
    if k >= 0 then (DecodeComponent(bs[..k]), DecodeComponent(bs[k + 1..]))
    else (DecodeComponent(bs), "")
  }

  /** Parses the `&`-separated sequences in order, skipping empty ones. */
  function ParseSequences(parts: seq<seq<byte>>): (r: seq<(string, string)>)
    ensures |r| <= |parts|
  {
    if |parts| == 0 then []
    else if |parts[0]| == 0 then ParseSequences(parts[1..])
    else [ParseTuple(parts[0])] + ParseSequences(parts[1..])
  }

  /** The `application/x-www-form-urlencoded` parser over bytes. */
  function ParseBytes(input: seq<byte>): seq<(string, string)> {
    ParseSequences(Split(input, Ampersand))
  }

  /** `new URLSearchParams(s)`: the string is UTF-8 encoded, then parsed. */
  function Parse(s: string): seq<(string, string)> {
    ParseBytes(Utf8.Encode(s))
  }

  /** `URLSearchParams.get(name)`: the value of the first tuple with that name. */
  function Get(pairs: seq<(string, string)>, name: string): (r: Option<string>)
    ensures r.None? <==> forall i :: 0 <= i < |pairs| ==> pairs[i].0 != name
    ensures r.Some? ==>
      exists i :: 0 <= i < |pairs| && pairs[i] == (name, r.value) && (forall j :: 0 <= j < i ==> pairs[j].0 != name)
  {
    if |pairs| == 0 then None
    else if pairs[0].0 == name then Some(pairs[0].1)
    else
      Get(pairs[1..], name)
  }

  /** `+` to space and percent-decoding undo the encoding of one byte. */
  lemma DecodeEncodeByte(b: byte, rest: seq<byte>)
    ensures PercentDecode(PlusToSpace(EncodeByte(b) + rest)) == [b] + PercentDecode(PlusToSpace(rest))
  {
    var e := EncodeByte(b);
    var t := PlusToSpace(e + rest);
    if b == Space || Unreserved(b) {
      assert t[1..] == PlusToSpace(rest);
    } else {
      assert b / 16 * 16 + b % 16 == b;
      assert t[3..] == PlusToSpace(rest);
    }
  }

  /** Round trip on bytes: decoding the encoding gives the bytes back. */
  lemma {:induction false} DecodeEncodeBytes(bs: seq<byte>)
    ensures PercentDecode(PlusToSpace(EncodeBytes(bs))) == bs
    decreases |bs|
  {
    if |bs| > 0 {
      DecodeEncodeByte(bs[0], EncodeBytes(bs[1..]));
      DecodeEncodeBytes(bs[1..]);
      assert bs == [bs[0]] + bs[1..];
    }
  }

  /** Round trip on one name or value. */
  lemma DecodeEncodeComponent(s: string)
    ensures DecodeComponent(EncodeComponent(s)) == s
  {
    DecodeEncodeBytes(Utf8.Encode(s));
    Utf8.DecodeEncode(s);
  }

  /** Parsing one serialized tuple gives the tuple back. */
  lemma ParseSerializedPair(p: (string, string))
    ensures ParseTuple(SerializePair(p)) == p
  {
    var n := EncodeComponent(p.0);
    var bs := SerializePair(p);
    var k := IndexOf(bs, Equals);
    assert bs[..|n|] == n;
    assert Equals !in n;
    assert bs[|n|] == Equals;
    assert k == |n|;
    assert bs[k + 1..] == EncodeComponent(p.1);
    DecodeEncodeComponent(p.0);
    DecodeEncodeComponent(p.1);
  }

  /** Parsing a list of non-empty serialized tuples gives the tuples back. */
  lemma {:induction false} ParseSerializedPieces(pairs: seq<(string, string)>, parts: seq<seq<byte>>)
    requires |parts| == |pairs|
    requires forall i :: 0 <= i < |pairs| ==> parts[i] == SerializePair(pairs[i])
    ensures ParseSequences(parts) == pairs
    decreases |pairs|
  {
    if |pairs| > 0 {
      ParseSerializedPair(pairs[0]);
      ParseSerializedPieces(pairs[1..], parts[1..]);
      assert pairs == [pairs[0]] + pairs[1..];
    }
  }

  /** Round trip: the parser inverts the serializer, for every tuple list. */
  lemma ParseSerialize(pairs: seq<(string, string)>)
    ensures Parse(Serialize(pairs)) == pairs
  {
    var parts := seq(|pairs|, i requires 0 <= i < |pairs| => SerializePair(pairs[i]));
    var bs := SerializeBytes(pairs);
    JoinAscii(parts, Ampersand);
    EncodeAscii(bs);
    if |pairs| == 0 {
      assert Split(bs, Ampersand) == [[]];
    } else {
      SplitJoin(parts, Ampersand);
      ParseSerializedPieces(pairs, parts);
    }
  }
}

=== FILE: manual_landing.dfy ===
/** The public landing page of one resource, `src/components/ManualLanding.tsx`:
    the load outcome, the language selector and the file the page links to.
    The fetch is a parameter; the page only sees what it returned. */
module ManualLanding {
  import opened Wrappers
  import opened Seqs
  import opened Types

  /** What the single-row query produced: a row (or `null`), or a thrown value. */
  datatype LandingFetch = Fetched(data: Option<Resource>) | FetchFailed(err: Thrown)

  /** The component's state: `resource`, `selectedLanguage`, `loading`, `error`. */
  datatype Landing = Landing(resource: Option<Resource>, selected: string, loading: bool, error: Option<string>)

  const InitialLanding: Landing := Landing(None, "", true, None)

  const LoadFallbackMessage: string := "Failed to load manual"
  const NotFoundMessage: string := "Manual not found"

  /** `data.translations?.[0]?.language || ''`: the language that selects the
      first translation, or the empty string when there is none. */
  function InitialLanguage(res: Resource): (r: string)
    ensures |res.translations| == 0 ==> r == ""
    ensures |res.translations| > 0 ==> r in Languages(res.translations)
    ensures |res.translations| > 0 ==> CurrentTranslation(res.translations, r) == Some(res.translations[0])
  {
    if |res.translations| > 0 then res.translations[0].language else ""
  }

  /** The languages offered by the selector, in stored order. */
  function Languages(ts: seq<Translation>): (ls: seq<string>)
    ensures |ls| == |ts| && forall i :: 0 <= i < |ts| ==> ls[i] == ts[i].language
  {
    seq(|ts|, i requires 0 <= i < |ts| => ts[i].language)
  }

  /** `resource.translations?.find(t => t.language === selectedLanguage)`. */
  function CurrentTranslation(ts: seq<Translation>, lang: string): (r: Option<Translation>)
    ensures r.None? <==> forall i :: 0 <= i < |ts| ==> ts[i].language != lang
    ensures r.Some? ==> r.value in ts && r.value.language == lang
    decreases |ts|
  {
    if |ts| == 0 then None
    else if ts[0].language == lang then Some(ts[0])
    else CurrentTranslation(ts[1..], lang)
  }

  /** The translation found is the first one in the stored order whose
      language is the selected one. */
  lemma {:induction false} CurrentIsFirstMatch(ts: seq<Translation>, lang: string)
    ensures var k := IndexOf(Languages(ts), lang);
      CurrentTranslation(ts, lang) == (if k < 0 then None else Some(ts[k]))
    decreases |ts|
  {
    if |ts| > 0 {
      CurrentIsFirstMatch(ts[1..], lang);
      assert Languages(ts) == [ts[0].language] + Languages(ts[1..]);
      IndexOfCons(ts[0].language, Languages(ts[1..]), lang);
    }
  }

  /** The link target: the current translation's `file_url` when there is one
      and it is non-empty, else the resource's own. Stated against the first
      position of the language in the selector's list. */
  function FileUrl(res: Resource, lang: string): (r: string)
    ensures var k := IndexOf(Languages(res.translations), lang);
      r == if 0 <= k && res.translations[k].file_url != "" then res.translations[k].file_url else res.file_url
  {
    CurrentIsFirstMatch(res.translations, lang);
    var t := CurrentTranslation(res.translations, lang);
    if t.Some? && t.value.file_url != "" then t.value.file_url else res.file_url
  }

  /** The download name, by the same rule as `FileUrl`. */
  function FileName(res: Resource, lang: string): (r: string)
    ensures var k := IndexOf(Languages(res.translations), lang);
      r == if 0 <= k && res.translations[k].file_name != "" then res.translations[k].file_name else res.file_name
  {
    CurrentIsFirstMatch(res.translations, lang);
    var t := CurrentTranslation(res.translations, lang);
    if t.Some? && t.value.file_name != "" then t.value.file_name else res.file_name
  }

  /** With no translation in the selected language (in particular with none
      at all), the page uses the resource's own file. */
  lemma NoMatchFallsBack(res: Resource, lang: string)
    requires forall i :: 0 <= i < |res.translations| ==> res.translations[i].language != lang
    ensures FileUrl(res, lang) == res.file_url && FileName(res, lang) == res.file_name
  {
  }

  /** Choosing a language picks the file of its first translation whenever
      that file's URL (name) is set, and the resource's own URL (name) when it
      is empty. */
  lemma SelectedLanguageFile(res: Resource, k: nat)
    requires k < |res.translations|
    requires forall j :: 0 <= j < k ==> res.translations[j].language != res.translations[k].language
    ensures res.translations[k].file_url != "" ==> FileUrl(res, res.translations[k].language) == res.translations[k].file_url
    ensures res.translations[k].file_name != "" ==> FileName(res, res.translations[k].language) == res.translations[k].file_name
    ensures res.translations[k].file_url == "" ==> FileUrl(res, res.translations[k].language) == res.file_url
    ensures res.translations[k].file_name == "" ==> FileName(res, res.translations[k].language) == res.file_name
  {
    var ts, lang := res.translations, res.translations[k].language;
    CurrentIsFirstMatch(ts, lang);
    var ls := Languages(ts);
    assert ls[k] == lang;
    assert lang !in ls[..k];
    IndexOfPrefix(ls, lang, k + 1);
    assert IndexOf(ls, lang) == k;
  }

  /** The link always names a file the row itself records: the resource's own
      or one of its translations'. */
  lemma FileUrlIsRecorded(res: Resource, lang: string)
    ensures FileUrl(res, lang) == res.file_url ||
      exists i :: 0 <= i < |res.translations| && res.translations[i].file_url == FileUrl(res, lang)
  {
    var t := CurrentTranslation(res.translations, lang);
    if t.Some? && t.value.file_url != "" {
      var i :| 0 <= i < |res.translations| && res.translations[i] == t.value;
    }
  }

  /** The page opens on the first translation: its file is the one linked
      whenever its URL is set. */
  lemma DefaultLanguageSelectsFirst(res: Resource)
    requires |res.translations| > 0
    ensures CurrentTranslation(res.translations, InitialLanguage(res)) == Some(res.translations[0])
    ensures res.translations[0].file_url != "" ==> FileUrl(res, InitialLanguage(res)) == res.translations[0].file_url
  {
  }

  /** The effect of the fetch. A `null` row with no error makes
      `data.translations` throw a `TypeError`, whose text the engine supplies
      (`nullAccessMessage`); that is what lands in `error`. */
  function Load(st: Landing, fetched: LandingFetch, nullAccessMessage: string): (r: Landing)
    ensures !r.loading
    ensures fetched.FetchFailed? ==> r.resource == st.resource && r.selected == st.selected
    ensures fetched.FetchFailed? ==> r.error == Some(MessageOr(fetched.err, LoadFallbackMessage))
    ensures fetched.Fetched? && fetched.data.Some? ==> r.resource == fetched.data && r.error == st.error
    ensures fetched.Fetched? && fetched.data.Some? ==> r.selected == InitialLanguage(fetched.data.value)
    ensures fetched.Fetched? && fetched.data.None? ==> r.resource.None? && r.error == Some(nullAccessMessage)
  {
    match fetched
    case FetchFailed(e) => st.(loading := false, error := Some(MessageOr(e, LoadFallbackMessage)))
    case Fetched(None) => st.(resource := None, loading := false, error := Some(nullAccessMessage))
    case Fetched(Some(res)) => st.(resource := Some(res), selected := InitialLanguage(res), loading := false)
  }

  /** The selector's `onChange`. */
  function SelectLanguage(st: Landing, lang: string): (r: Landing)
    ensures r.selected == lang
    ensures r.resource == st.resource && r.loading == st.loading && r.error == st.error
  {
    st.(selected := lang)
  }

  /** What the page shows. */
  datatype View =
    | LoadingView
    | MessageView(text: string)
    | ManualView(title: string, description: string, languages: seq<string>, fileUrl: string, fileName: string)

  /** The page for a state: the spinner, the error text (or "Manual not found"
      when there is no text or no resource), or the manual with its links. */
  function Render(st: Landing): (v: View)
    ensures v.LoadingView? <==> st.loading
    ensures v.MessageView? <==> !st.loading && ((st.error.Some? && st.error.value != "") || st.resource.None?)
    ensures v.MessageView? ==> v.text != ""
    ensures v.MessageView? ==> v.text == if st.error.Some? && st.error.value != "" then st.error.value else NotFoundMessage
    ensures v.ManualView? ==> v.languages == Languages(st.resource.value.translations)
    ensures v.ManualView? ==> v.title == st.resource.value.title && v.description == st.resource.value.description
    ensures v.ManualView? ==>
      v.fileUrl == FileUrl(st.resource.value, st.selected) && v.fileName == FileName(st.resource.value, st.selected)
  {
    if st.loading then LoadingView
    else if (st.error.Some? && st.error.value != "") || st.resource.None? then
      MessageView(if st.error.Some? && st.error.value != "" then st.error.value else NotFoundMessage)
    else
      var res := st.resource.value;
      ManualView(res.title, res.description, Languages(res.translations),
                 FileUrl(res, st.selected), FileName(res, st.selected))
  }

  /** After the fetch settles the page never shows the spinner again; a failed
      fetch shows its message, or "Manual not found" when the message is
      empty; a row shows that row opened on its first language. */
  lemma LoadOutcome(fetched: LandingFetch, nullAccessMessage: string)
    ensures var v := Render(Load(InitialLanding, fetched, nullAccessMessage));
      && !v.LoadingView?
      && (fetched.FetchFailed? ==> v == MessageView(
            if MessageOr(fetched.err, LoadFallbackMessage) != "" then MessageOr(fetched.err, LoadFallbackMessage)
            else NotFoundMessage))
      && (fetched.Fetched? && fetched.data.None? ==> v.MessageView?)
      && (fetched.Fetched? && fetched.data.Some? ==>
            var res := fetched.data.value;
            v == ManualView(res.title, res.description, Languages(res.translations),
                            FileUrl(res, InitialLanguage(res)), FileName(res, InitialLanguage(res))))
  {
  }
}

=== FILE: qr_code.dfy ===
/** `generateQRCode`: the image URL of a QR code for a given URL, rendered by a
    third-party HTTP API with a fixed size, format and colours. */
module QrCode {
  import opened Wrappers
  import opened Seqs
  import FormUrlEncoded

  const QrApiUrl: string := "https://api.qrserver.com/v1/create-qr-code/"

  /** The query tuples, in the order the source's object literal lists them. */
  function QueryParams(url: string): seq<(string, string)> {
    [("size", "200x200"), ("data", url), ("format", "png"), ("bgcolor", "ffffff"), ("color", "1e3a8a")]
  }

  /** The query part of a URL string: everything after its first `?`, or
      nothing when it has none. */
  function QueryOf(s: string): (q: string)
    ensures '?' !in s ==> q == ""
    ensures '?' in s ==> q == s[IndexOf(s, '?') + 1..]
  {
    var k := IndexOf(s, '?');
    if k < 0 then "" else s[k + 1..]
  }

  /** A `?`-free base followed by `?` and a query: the query is recoverable. */
  function WithQuery(base: string, query: string): (r: string)
    requires '?' !in base
    ensures |r| > |base| && r[..|base|] == base && r[|base|] == '?'
    ensures QueryOf(r) == query
  {
    var r := base + "?" + query;
    assert r[..|base|] == base;
    assert r[|base| + 1..] == query;
    r
  }

  /** The API URL carries no query of its own. */
  lemma ApiUrlHasNoQuery()
    ensures '?' !in QrApiUrl
  {
  }

  /** The API URL, `?`, and the form-urlencoded query. */
  function GenerateQRCode(url: string): (r: string)
    ensures |r| > |QrApiUrl| && r[..|QrApiUrl|] == QrApiUrl && r[|QrApiUrl|] == '?'
    ensures QueryOf(r) == FormUrlEncoded.Serialize(QueryParams(url))
  {
    ApiUrlHasNoQuery();
    WithQuery(QrApiUrl, FormUrlEncoded.Serialize(QueryParams(url)))
  }

  /** Parsing the generated query gives exactly the five tuples, in order. */
  lemma QueryRoundTrip(url: string)
    ensures FormUrlEncoded.Parse(QueryOf(GenerateQRCode(url))) ==
      [("size", "200x200"), ("data", url), ("format", "png"), ("bgcolor", "ffffff"), ("color", "1e3a8a")]
  {
    FormUrlEncoded.ParseSerialize(QueryParams(url));
  }

  /** Reading `data` back from the generated URL gives the input URL. */
  lemma DataRoundTrip(url: string)
    ensures FormUrlEncoded.Get(FormUrlEncoded.Parse(QueryOf(GenerateQRCode(url))), "data") == Some(url)
  {
    QueryRoundTrip(url);
  }

  /** Distinct URLs give distinct QR image URLs. */
  lemma GenerateInjective(a: string, b: string)
    ensures GenerateQRCode(a) == GenerateQRCode(b) ==> a == b
  {
    DataRoundTrip(a);
    DataRoundTrip(b);
  }
}

=== FILE: seqs.dfy ===
/** Sequence helpers mirroring the array methods the source relies on
    (`filter`, `split`, `join`, `findIndex`, `new Set(...)`). */
module Seqs {

  /** `sub` is an order-preserving subsequence of `s` (greedy leftmost matching). */
  predicate IsSubseq<T(==)>(sub: seq<T>, s: seq<T>)
    decreases |s|
  {
    if |sub| == 0 then true
    else if |s| == 0 then false
    else if sub[0] == s[0] then IsSubseq(sub[1..], s[1..])
    else IsSubseq(sub, s[1..])
  }

  /** Skipping an element of `s` keeps a subsequence a subsequence. */
  lemma {:induction false} SubseqOfTail<T>(sub: seq<T>, s: seq<T>)
    requires |s| > 0 && IsSubseq(sub, s[1..])
    ensures IsSubseq(sub, s)
    decreases |s|, |sub|
  {
    if |sub| > 0 && sub[0] == s[0] {
      SubseqDropHead(sub, s[1..]);
    }
  }

  /** Dropping the first element of a subsequence keeps a subsequence. */
  lemma {:induction false} SubseqDropHead<T>(sub: seq<T>, s: seq<T>)
    requires |sub| > 0 && IsSubseq(sub, s)
    ensures IsSubseq(sub[1..], s)
    decreases |s|, |sub|
  {
    if sub[0] == s[0] {
      SubseqOfTail(sub[1..], s);
    } else {
      SubseqDropHead(sub, s[1..]);
      SubseqOfTail(sub[1..], s);
    }
  }

  /** `Array.prototype.filter`: the elements satisfying `p`, in their original order. */
  function Filter<T(!new)>(s: seq<T>, p: T -> bool): (r: seq<T>)
    ensures |r| <= |s|
    ensures forall x :: x in r <==> x in s && p(x)
    ensures forall i :: 0 <= i < |r| ==> p(r[i])
  {
    if |s| == 0 then []
    else if p(s[0]) then [s[0]] + Filter(s[1..], p)
    else Filter(s[1..], p)
  }

  /** Each element is kept as many times as it occurs when it passes, and
      dropped entirely when it does not. */
  lemma {:induction false} FilterMultiset<T(!new)>(s: seq<T>, p: T -> bool)
    ensures forall x :: multiset(Filter(s, p))[x] == if p(x) then multiset(s)[x] else 0
  {
    if |s| > 0 {
      FilterMultiset(s[1..], p);
      assert s == [s[0]] + s[1..];
    }
  }

  /** The kept elements stay in their original order. */
  lemma {:induction false} FilterSubseq<T(!new)>(s: seq<T>, p: T -> bool)
    ensures IsSubseq(Filter(s, p), s)
  {
    if |s| > 0 {
      FilterSubseq(s[1..], p);
      if !p(s[0]) {
        SubseqOfTail(Filter(s[1..], p), s);
      }
    }
  }

  /** Filtering keeps everything exactly when every element passes. */
  lemma {:induction false} FilterAll<T(!new)>(s: seq<T>, p: T -> bool)
    ensures Filter(s, p) == s <==> forall i :: 0 <= i < |s| ==> p(s[i])
  {
    if |s| > 0 {
      FilterAll(s[1..], p);
      if !p(s[0]) {
        assert s[0] !in Filter(s, p) || |Filter(s, p)| < |s|;
      }
    }
  }

  /** When the last element passes, it is the last element kept. */
  lemma FilterKeepsLast<T(!new)>(s: seq<T>, p: T -> bool)
    requires |s| > 0 && p(s[|s| - 1])
    ensures |Filter(s, p)| > 0 && Filter(s, p)[|Filter(s, p)| - 1] == s[|s| - 1]
  {
    var init, last := s[..|s| - 1], s[|s| - 1];
    assert s == init + [last];
    FilterAppend(init, [last], p);
    assert Filter([last], p) == [last];
  }

  /** Filtering keeps nothing exactly when no element passes. */
  lemma {:induction false} FilterNone<T(!new)>(s: seq<T>, p: T -> bool)
    ensures Filter(s, p) == [] <==> forall i :: 0 <= i < |s| ==> !p(s[i])
  {
    if |s| > 0 {
      FilterNone(s[1..], p);
      assert forall i :: 1 <= i < |s| ==> s[1..][i - 1] == s[i];
    }
  }

  /** Filtering twice with the same predicate is filtering once. */
  lemma FilterIdempotent<T(!new)>(s: seq<T>, p: T -> bool)
    ensures Filter(Filter(s, p), p) == Filter(s, p)
  {
    FilterAll(Filter(s, p), p);
  }

  /** `Filter(s, p)` and `Filter(s, q)` split `s` when `q` is the negation of `p`. */
  lemma {:induction false} FilterPartition<T(!new)>(s: seq<T>, p: T -> bool, q: T -> bool)
    requires forall x :: q(x) <==> !p(x)
    ensures multiset(Filter(s, p)) + multiset(Filter(s, q)) == multiset(s)
  {
    if |s| > 0 {
      FilterPartition(s[1..], p, q);
      assert s == [s[0]] + s[1..];
    }
  }

  /** `arr.split(sep)`: the maximal separator-free pieces; always at least one. */
  function Split<T(==)>(s: seq<T>, sep: T): (parts: seq<seq<T>>)
    ensures |parts| >= 1
    ensures forall i :: 0 <= i < |parts| ==> sep !in parts[i]
    decreases |s|
  {
    if |s| == 0 then [[]]
    else if s[0] == sep then [[]] + Split(s[1..], sep)
    else
      var rest := Split(s[1..], sep);
      [[s[0]] + rest[0]] + rest[1..]
  }

  /** A trailing separator adds one empty piece at the end. */
  lemma {:induction false} SplitTrailingSep<T>(s: seq<T>, sep: T)
    ensures Split(s + [sep], sep) == Split(s, sep) + [[]]
    decreases |s|
  {
    if |s| > 0 {
      SplitTrailingSep(s[1..], sep);
      assert (s + [sep])[0] == s[0];
      assert (s + [sep])[1..] == s[1..] + [sep];
    } else {
      assert s + [sep] == [sep];
      assert [sep][1..] == [];
    }
  }

  /** `arr.join(sep)`; the empty list joins to the empty sequence. */
  function Join<T>(parts: seq<seq<T>>, sep: T): seq<T>
  {
    if |parts| == 0 then []
    else if |parts| == 1 then parts[0]
    else parts[0] + [sep] + Join(parts[1..], sep)
  }

  /** Joining the pieces of a split restores the input. */
  lemma {:induction false} JoinSplit<T>(s: seq<T>, sep: T)
    ensures Join(Split(s, sep), sep) == s
    decreases |s|
  {
    if |s| > 0 {
      JoinSplit(s[1..], sep);
      var rest := Split(s[1..], sep);
      if s[0] == sep {
        assert Split(s, sep)[1..] == rest;
      } else if |rest| > 1 {
        var parts := Split(s, sep);
        assert parts[1..] == rest[1..];
        assert Join(rest, sep) == rest[0] + [sep] + Join(rest[1..], sep);
        assert s == [s[0]] + s[1..];
      } else {
        assert s == [s[0]] + s[1..];
      }
    }
  }

  /** A separator-free prefix followed by a separator splits off as one piece. */
  lemma {:induction false} SplitPiece<T>(p: seq<T>, sep: T, rest: seq<T>)
    requires sep !in p
    ensures Split(p + [sep] + rest, sep) == [p] + Split(rest, sep)
    decreases |p|
  {
    if |p| == 0 {
      assert p + [sep] + rest == [sep] + rest;
    } else {
      assert (p + [sep] + rest)[1..] == p[1..] + [sep] + rest;
      SplitPiece(p[1..], sep, rest);
      assert [p[0]] + p[1..] == p;
    }
  }

  /** A separator-free sequence is a single piece. */
  lemma {:induction false} SplitNoSep<T>(p: seq<T>, sep: T)
    requires sep !in p
    ensures Split(p, sep) == [p]
    decreases |p|
  {
    if |p| > 0 {
      SplitNoSep(p[1..], sep);
      assert [p[0]] + p[1..] == p;
    }
  }

  /** Splitting a join of separator-free pieces gives the pieces back. */
  lemma {:induction false} SplitJoin<T>(parts: seq<seq<T>>, sep: T)
    requires |parts| >= 1
    requires forall i :: 0 <= i < |parts| ==> sep !in parts[i]
    ensures Split(Join(parts, sep), sep) == parts
    decreases |parts|
  {
    if |parts| == 1 {
      SplitNoSep(parts[0], sep);
    } else {
      SplitJoin(parts[1..], sep);
      SplitPiece(parts[0], sep, Join(parts[1..], sep));
      assert [parts[0]] + parts[1..] == parts;
    }
  }

  /** A split yields one piece exactly when the separator does not occur. */
  lemma {:induction false} SplitSingle<T>(s: seq<T>, sep: T)
    ensures |Split(s, sep)| == 1 <==> sep !in s
    decreases |s|
  {
    if |s| > 0 {
      SplitSingle(s[1..], sep);
      assert s == [s[0]] + s[1..];
    }
  }

  /** The last piece of a split is the longest separator-free suffix. */
  lemma {:induction false} SplitLast<T>(s: seq<T>, sep: T)
    ensures var parts := Split(s, sep);
      var r := parts[|parts| - 1];
      && |r| <= |s| && r == s[|s| - |r|..]
      && (|r| < |s| ==> s[|s| - |r| - 1] == sep)
    decreases |s|
  {
    if |s| > 0 {
      SplitLast(s[1..], sep);
      var rest := Split(s[1..], sep);
      var r := rest[|rest| - 1];
      SplitSingle(s[1..], sep);
      if s[0] != sep && |rest| == 1 {
        assert sep !in s by { assert s == [s[0]] + s[1..]; }
        SplitNoSep(s, sep);
      } else {
        SplitLastOfTail(s, sep);
        assert s[1..][|s| - 1 - |r|..] == s[|s| - |r|..];
        if |r| < |s| - 1 {
          assert s[1..][|s| - 1 - |r| - 1] == sep;
        }
      }
    }
  }

  /** Unless the head joins a lone tail piece, the last piece of `s` is the
      last piece of its tail. */
  lemma SplitLastOfTail<T>(s: seq<T>, sep: T)
    requires |s| > 0 && (s[0] == sep || |Split(s[1..], sep)| > 1)
    ensures var parts, rest := Split(s, sep), Split(s[1..], sep);
      parts[|parts| - 1] == rest[|rest| - 1]
  {
  }

  /** The last piece of `t + [sep] + e` is `e` when `e` is separator-free. */
  lemma LastPieceAfterSep<T>(t: seq<T>, sep: T, e: seq<T>)
    requires sep !in e
    ensures var parts := Split(t + [sep] + e, sep); parts[|parts| - 1] == e
  {
    var s := t + [sep] + e;
    var parts := Split(s, sep);
    var r := parts[|parts| - 1];
    SplitLast(s, sep);
    assert s[|s| - |e|..] == e;
    assert forall k :: |s| - |r| <= k < |s| ==> s[k] == r[k - (|s| - |r|)];
    assert forall k :: |s| - |e| <= k < |s| ==> s[k] == e[k - (|s| - |e|)];
    assert s[|s| - |e| - 1] == sep;
    assert |r| == |e|;
  }

  /** Filtering distributes over concatenation. */
  lemma {:induction false} FilterAppend<T(!new)>(a: seq<T>, b: seq<T>, p: T -> bool)
    ensures Filter(a + b, p) == Filter(a, p) + Filter(b, p)
    decreases |a|
  {
    if |a| > 0 {
      FilterAppend(a[1..], b, p);
      assert (a + b)[0] == a[0];
      assert (a + b)[1..] == a[1..] + b;
      if p(a[0]) {
        assert Filter(a + b, p) == [a[0]] + Filter(a[1..] + b, p);
        assert Filter(a, p) == [a[0]] + Filter(a[1..], p);
      } else {
        assert Filter(a + b, p) == Filter(a[1..] + b, p);
        assert Filter(a, p) == Filter(a[1..], p);
      }
    } else {
      assert a + b == b;
    }
  }

  /** `findIndex` for an equality test: the first position of `x`, or -1. */
  function IndexOf<T(==)>(s: seq<T>, x: T): (r: int)
    ensures -1 <= r < |s|
    ensures r == -1 <==> x !in s
    ensures 0 <= r ==> s[r] == x && x !in s[..r]
  {
    if |s| == 0 then -1
    else if s[0] == x then 0
    else
      var k := IndexOf(s[1..], x);
      if k == -1 then
        assert s == [s[0]] + s[1..];
        -1
      else
        assert s[..k + 1] == [s[0]] + s[1..][..k];
        k + 1
  }

  /** The first position of `x` in `[y] + s`, from its first position in `s`. */
  lemma IndexOfCons<T>(y: T, s: seq<T>, x: T)
    ensures IndexOf([y] + s, x) == if y == x then 0 else if IndexOf(s, x) == -1 then -1 else IndexOf(s, x) + 1
  {
    assert ([y] + s)[1..] == s;
  }

  /** No element occurs twice. */
  predicate NoDups<T(==)>(s: seq<T>) {
    forall i, j :: 0 <= i < j < |s| ==> s[i] != s[j]
  }

  /** The first-occurrence position is unaffected by appending after it. */
  lemma IndexOfPrefix<T>(s: seq<T>, x: T, n: nat)
    requires n <= |s| && x in s[..n]
    ensures IndexOf(s, x) == IndexOf(s[..n], x)
  {
    var k := IndexOf(s, x);
    var k' := IndexOf(s[..n], x);
    assert s[..n][..k'] == s[..k'];
  }

  /** Appending `x` to `s` extends the distinct-element list of `s` by `x`
      exactly when `x` is new, and keeps it first-occurrence ordered. */
  lemma DedupAppend<T>(s: seq<T>, d: seq<T>, x: T)
    requires forall y :: y in d ==> y in s
    requires forall i, j :: 0 <= i < j < |d| ==> IndexOf(s, d[i]) < IndexOf(s, d[j])
    requires x !in s
    ensures forall i, j :: 0 <= i < j < |d + [x]| ==>
      IndexOf(s + [x], (d + [x])[i]) < IndexOf(s + [x], (d + [x])[j])
  {
    var s' := s + [x];
    assert s'[..|s|] == s;
    forall y | y in d
      ensures IndexOf(s', y) == IndexOf(s, y)
    {
      IndexOfPrefix(s', y, |s|);
    }
    assert IndexOf(s', x) == |s| by {
      assert x !in s'[..|s|];
    }
  }

  /** The distinct elements of `s` in order of first occurrence: what
      iterating `new Set(s)` yields. */
  function Dedup<T(==,!new)>(s: seq<T>): (r: seq<T>)
    ensures NoDups(r)
    ensures forall x :: x in r <==> x in s
    ensures forall i, j :: 0 <= i < j < |r| ==> IndexOf(s, r[i]) < IndexOf(s, r[j])
    decreases |s|
  {
    if |s| == 0 then []
    else
      var n := |s| - 1;
      var d := Dedup(s[..n]);
      var x := s[n];
      assert s == s[..n] + [x];
      if x in d then
        forall y | y in d
          ensures IndexOf(s, y) == IndexOf(s[..n], y)
        {
          IndexOfPrefix(s, y, n);
        }
        d
      else
        DedupAppend(s[..n], d, x);
        d + [x]
  }
}

=== FILE: text.dfy ===
/** String operations the browse search uses: lower-casing and substring search
    (`toLowerCase`, `includes`). Lower-casing is modelled on ASCII letters only. */
module Text {

  /** ASCII lower-casing of one character. */
  function LowerChar(c: char): (r: char)
    ensures 'A' <= c <= 'Z' ==> r as int == c as int + 32
    ensures !('A' <= c <= 'Z') ==> r == c
  {
    if 'A' <= c <= 'Z' then (c as int + 32) as char else c
  }

  /** `s.toLowerCase()`, restricted to ASCII letters. */
  function Lower(s: string): (r: string)
    ensures |r| == |s|
    ensures forall i :: 0 <= i < |s| ==> r[i] == LowerChar(s[i])
  {
    if |s| == 0 then "" else [LowerChar(s[0])] + Lower(s[1..])
  }

  /** Lower-casing is idempotent: no upper-case ASCII letter survives it. */
  lemma LowerIdempotent(s: string)
    ensures Lower(Lower(s)) == Lower(s)
  {
  }

  predicate IsPrefix(p: string, s: string) {
    |p| <= |s| && s[..|p|] == p
  }

  /** `s.includes(q)`, computed by trying every start position in turn. */
  predicate Contains(s: string, q: string)
    decreases |s|
  {
    IsPrefix(q, s) || (|s| > 0 && Contains(s[1..], q))
  }

  /** `q` occurs in `s` starting at position `i`. */
  ghost predicate OccursAt(s: string, q: string, i: int) {
    0 <= i && i + |q| <= |s| && s[i..i + |q|] == q
  }

  /** `q` occurs somewhere in `s`: the textbook definition of substring. */
  ghost predicate Occurs(s: string, q: string) {
    exists i :: OccursAt(s, q, i)
  }

  /** The search agrees with the textbook definition of substring. */
  lemma {:induction false} ContainsIff(s: string, q: string)
    ensures Contains(s, q) <==> Occurs(s, q)
    decreases |s|
  {
    if |s| > 0 {
      ContainsIff(s[1..], q);
      if Contains(s[1..], q) {
        var i :| OccursAt(s[1..], q, i);
        assert s[i + 1..i + 1 + |q|] == s[1..][i..i + |q|];
        assert OccursAt(s, q, i + 1);
      }
      if IsPrefix(q, s) {
        assert OccursAt(s, q, 0);
      }
      if i :| OccursAt(s, q, i) {
        if i == 0 {
          assert s[..|q|] == s[0..|q|];
        } else {
          assert s[1..][i - 1..i - 1 + |q|] == s[i..i + |q|];
          assert OccursAt(s[1..], q, i - 1);
        }
      }
    } else if |q| == 0 {
      assert OccursAt(s, q, 0);
    }
  }

  /** The empty query is contained in every string. */
  lemma ContainsEmpty(s: string)
    ensures Contains(s, "")
  {
    assert IsPrefix("", s);
  }
}

=== FILE: types.dfy ===
/** The records the application exchanges with its resource store, after
    `src/types.ts`, extended with the `translations` and `icon_url` columns the
    admin panel and the landing page read. */
module Types {
  import opened Wrappers

  /** The two kinds of resource (`'manual' | 'brochure'`). */
  datatype ResourceType = Manual | Brochure

  /** One language variant of a resource's document. */
  datatype Translation = Translation(language: string, file_url: string, file_name: string)

  /** A row of the `resources` table. A missing `translations` column is the
      empty sequence: every reader treats the two alike. */
  datatype Resource = Resource(
    id: string,
    title: string,
    description: string,
    category: string,
    kind: ResourceType,
    file_url: string,
    file_name: string,
    qr_code: Option<string>,
    icon_url: Option<string>,
    translations: seq<Translation>,
    created_at: string,
    updated_at: string)

  /** The parts of a browser `File` the application reads. */
  datatype File = File(name: string, mime: string, size: nat)

  /** A value caught by a `catch` clause: an `Error` carries a message,
      anything else does not. */
  datatype Thrown = ErrorValue(message: string) | OtherValue

  /** `err instanceof Error ? err.message : fallback`. */
  function MessageOr(err: Thrown, fallback: string): (m: string)
    ensures err.ErrorValue? ==> m == err.message
    ensures err.OtherValue? ==> m == fallback
  {
    match err
    case ErrorValue(msg) => msg
    case OtherValue => fallback
  }
}

=== FILE: use_resources.dfy ===
/** The `useResources` hook as a state machine over `{resources, loading,
    error}`. Each store call is replaced by its outcome, passed in. */
module ResourceStore {
  import opened Wrappers
  import opened Seqs
  import opened Types

  datatype HookState = HookState(resources: seq<Resource>, loading: bool, error: Option<string>)

  /** The list query's outcome: rows (possibly `null`), or a thrown value. */
  datatype FetchResult = FetchOk(data: Option<seq<Resource>>) | FetchErr(err: Thrown)

  /** The insert's outcome: the stored row, or a thrown value. */
  datatype InsertResult = InsertOk(row: Resource) | InsertErr(err: Thrown)

  /** The delete's outcome: done, or a thrown value. */
  datatype DeleteResult = DeleteOk | DeleteErr(err: Thrown)

  const FetchFallbackMessage: string := "Failed to fetch resources"
  const AddFallbackMessage: string := "Failed to add resource"
  const DeleteFallbackMessage: string := "Failed to delete resource"

  /** `fetchResources` up to the query: only `loading` changes. */
  function BeginFetch(st: HookState): (r: HookState)
    ensures r.loading && r.resources == st.resources && r.error == st.error
  {
    st.(loading := true)
  }

  /** `fetchResources` once the query has answered. Success replaces the list
      (`null` reads as empty) and leaves `error` as it was; failure records the
      message and keeps the list. Either way loading ends. */
  function FinishFetch(st: HookState, res: FetchResult): (r: HookState)
    ensures !r.loading
    ensures res.FetchOk? ==> r.resources == res.data.GetOr([]) && r.error == st.error
    ensures res.FetchErr? ==>
      r.resources == st.resources && r.error == Some(MessageOr(res.err, FetchFallbackMessage))
  {
    match res
    case FetchOk(data) => HookState(data.GetOr([]), false, st.error)
    case FetchErr(e) => HookState(st.resources, false, Some(MessageOr(e, FetchFallbackMessage)))
  }

  /** `fetchResources`, start to finish. */
  function FetchResources(st: HookState, res: FetchResult): (r: HookState)
    ensures !r.loading
    ensures res.FetchOk? ==> r.resources == res.data.GetOr([]) && r.error == st.error
    ensures res.FetchErr? ==>
      r.resources == st.resources && r.error == Some(MessageOr(res.err, FetchFallbackMessage))
    ensures res.FetchOk? && res.data.None? ==> r.resources == []
  {
    FinishFetch(BeginFetch(st), res)
  }

  /** `addResource`: the stored row goes to the front; a failure throws an
      `Error` and leaves the state alone. */
  function AddResource(st: HookState, res: InsertResult): (out: (HookState, Result<Resource, string>))
    ensures res.InsertOk? ==> out.0.resources == [res.row] + st.resources && out.1 == Success(res.row)
    ensures res.InsertOk? ==> |out.0.resources| == |st.resources| + 1
    ensures res.InsertErr? ==> out.0 == st && out.1 == Failure(MessageOr(res.err, AddFallbackMessage))
    ensures out.0.loading == st.loading && out.0.error == st.error
  {
    match res
    case InsertOk(row) => (st.(resources := [row] + st.resources), Success(row))
    case InsertErr(e) => (st, Failure(MessageOr(e, AddFallbackMessage)))
  }

  /** The rows whose id differs from `id`, in order. */
  function WithoutId(rs: seq<Resource>, id: string): (r: seq<Resource>)
    ensures forall x :: x in r <==> x in rs && x.id != id
    ensures IsSubseq(r, rs)
    ensures forall x :: multiset(r)[x] == if x.id != id then multiset(rs)[x] else 0
  {
    FilterSubseq(rs, (x: Resource) => x.id != id);
    FilterMultiset(rs, (x: Resource) => x.id != id);
    Filter(rs, (x: Resource) => x.id != id)
  }

  /** `deleteResource`: success drops every row with that id; a failure throws
      an `Error` and leaves the state alone. */
  function DeleteResource(st: HookState, id: string, res: DeleteResult): (out: (HookState, Result<(), string>))
    ensures res.DeleteOk? ==> out.0.resources == WithoutId(st.resources, id) && out.1.Success?
    ensures res.DeleteErr? ==> out.0 == st && out.1 == Failure(MessageOr(res.err, DeleteFallbackMessage))
    ensures out.0.loading == st.loading && out.0.error == st.error
  {
    match res
    case DeleteOk => (st.(resources := WithoutId(st.resources, id)), Success(()))
    case DeleteErr(e) => (st, Failure(MessageOr(e, DeleteFallbackMessage)))
  }

  /** The rows' ids, in order. */
  function Ids(rs: seq<Resource>): (ids: seq<string>)
    ensures |ids| == |rs| && forall i :: 0 <= i < |rs| ==> ids[i] == rs[i].id
  {
    seq(|rs|, i requires 0 <= i < |rs| => rs[i].id)
  }

  /** Deleting removes exactly as many rows as carry the id. */
  lemma {:induction false} DeleteCount(rs: seq<Resource>, id: string)
    ensures |WithoutId(rs, id)| == |rs| - multiset(Ids(rs))[id]
  {
    if |rs| > 0 {
      DeleteCount(rs[1..], id);
      assert Ids(rs) == [rs[0].id] + Ids(rs[1..]);
      assert multiset(Ids(rs))[id] == (if rs[0].id == id then 1 else 0) + multiset(Ids(rs[1..]))[id];
      assert |WithoutId(rs, id)| == (if rs[0].id != id then 1 else 0) + |WithoutId(rs[1..], id)|;
    }
  }

  /** Deleting an id no row has changes nothing. */
  lemma DeleteAbsentId(st: HookState, id: string)
    requires forall i :: 0 <= i < |st.resources| ==> st.resources[i].id != id
    ensures DeleteResource(st, id, DeleteOk).0 == st
  {
    FilterAll(st.resources, (x: Resource) => x.id != id);
  }

  /** Deleting the same id twice is deleting it once. */
  lemma DeleteIdempotent(st: HookState, id: string)
    ensures var once := DeleteResource(st, id, DeleteOk).0;
      DeleteResource(once, id, DeleteOk).0 == once
  {
    FilterIdempotent(st.resources, (x: Resource) => x.id != id);
  }

  /** The hook's inputs, in the order they reach it. */
  datatype Event =
    | Fetch(fetched: FetchResult)
    | Add(inserted: InsertResult)
    | Delete(id: string, deleted: DeleteResult)

  /** One event's effect on the state. */
  function Apply(st: HookState, e: Event): HookState {
    match e
    case Fetch(res) => FetchResources(st, res)
    case Add(res) => AddResource(st, res).0
    case Delete(id, res) => DeleteResource(st, id, res).0
  }

  /** The state after a run of events. */
  function Run(st: HookState, events: seq<Event>): HookState
    decreases |events|
  {
    if |events| == 0 then st else Run(Apply(st, events[0]), events[1..])
  }

  /** No transition clears `error`: once a fetch has failed, the error stays,
      whatever succeeds afterwards. */
  lemma {:induction false} ErrorIsSticky(st: HookState, events: seq<Event>)
    requires st.error.Some?
    ensures Run(st, events).error.Some?
    decreases |events|
  {
    if |events| > 0 {
      ErrorIsSticky(Apply(st, events[0]), events[1..]);
    }
  }

  /** Add and delete never touch `loading`: the hook is done loading after its
      first fetch completes, whatever follows. */
  lemma {:induction false} LoadingOnlyFromFetch(st: HookState, events: seq<Event>)
    requires !st.loading
    ensures !Run(st, events).loading
    decreases |events|
  {
    if |events| > 0 {
      LoadingOnlyFromFetch(Apply(st, events[0]), events[1..]);
    }
  }
}

=== FILE: utf8.dfy ===
/** UTF-8 as the Encoding Standard defines it: the encoder that turns scalar
    values into bytes, and the decoder state machine (with replacement on
    error) behind "UTF-8 decode without BOM". Dafny's `char` is a Unicode
    scalar value, so strings here are already free of lone surrogates. */
module Utf8 {

  type byte = x: int | 0 <= x < 256

  /** U+FFFD, emitted by the decoder for every malformed sequence. */
  const Replacement: char := 0xFFFD as char

  /** The UTF-8 bytes of one scalar value. */
  function EncodeScalar(c: char): (bs: seq<byte>)
    ensures 1 <= |bs| <= 4
    ensures |bs| == 1 <==> c as int < 0x80
    ensures |bs| == 1 ==> bs[0] == c as int
  {
    var cp := c as int;
    if cp < 0x80 then [cp]
    else if cp < 0x800 then [0xC0 + cp / 64, 0x80 + cp % 64]
    else if cp < 0x10000 then [0xE0 + cp / 4096, 0x80 + (cp / 64) % 64, 0x80 + cp % 64]
    else [0xF0 + cp / 262144, 0x80 + (cp / 4096) % 64, 0x80 + (cp / 64) % 64, 0x80 + cp % 64]
  }

  /** The UTF-8 encoding of a string: its scalars' encodings, concatenated. */
  function Encode(s: string): (bs: seq<byte>)
    ensures |s| <= |bs|
  {
    if |s| == 0 then [] else EncodeScalar(s[0]) + Encode(s[1..])
  }

  /** The decoder's state: the code point so far, bytes seen and needed, and
      the range the next continuation byte must fall in. */
  datatype Decoder = Decoder(codePoint: int, seen: int, needed: int, lower: int, upper: int)

  /** The state between scalars. */
  const Fresh := Decoder(0, 0, 0, 0x80, 0xBF)

  /** The states reachable from `Fresh`. The bounds on the partial code point
      are what guarantees that a completed sequence is a scalar value. */
  ghost predicate Valid(d: Decoder) {
    if d.needed == 0 then d == Fresh
    else if d.needed == 1 then
      d.seen == 0 && 0x2 <= d.codePoint <= 0x1F && d.lower == 0x80 && d.upper == 0xBF
    else if d.needed == 2 then
      if d.seen == 0 then
        && 0 <= d.codePoint <= 0xF
        && d.lower == (if d.codePoint == 0 then 0xA0 else 0x80)
        && d.upper == (if d.codePoint == 0xD then 0x9F else 0xBF)
      else
        && d.seen == 1
        && 0x20 <= d.codePoint <= 0x3FF && !(0x360 <= d.codePoint <= 0x37F)
        && d.lower == 0x80 && d.upper == 0xBF
    else
      && d.needed == 3
      && d.lower == (if d.seen == 0 && d.codePoint == 0 then 0x90 else 0x80)
      && d.upper == (if d.seen == 0 && d.codePoint == 4 then 0x8F else 0xBF)
      && (d.seen == 0 ==> 0 <= d.codePoint <= 4)
      && (d.seen == 1 ==> 0x10 <= d.codePoint <= 0x10F)
      && (d.seen == 2 ==> 0x400 <= d.codePoint <= 0x43FF)
      && 0 <= d.seen <= 2
  }

  /** What the decoder's handler returns for one byte. `Error` with `restore`
      means the byte goes back to the front of the input. */
  datatype Outcome = Emit(c: char, next: Decoder) | Continue(next: Decoder) | Error(next: Decoder, restore: bool)

  /** The UTF-8 decoder's handler for one byte. */
  function Step(d: Decoder, b: byte): (o: Outcome)
    requires Valid(d)
    ensures Valid(o.next)
    ensures o.Emit? || o.Error? ==> o.next == Fresh
    ensures o.Error? && o.restore ==> d.needed > 0
    ensures d.needed == 0 && b < 0x80 ==> o == Emit(b as char, Fresh)
  {
    if d.needed == 0 then
      if b <= 0x7F then Emit(b as char, Fresh)
      else if 0xC2 <= b <= 0xDF then
        Continue(Decoder(b - 0xC0, 0, 1, 0x80, 0xBF))
      else if 0xE0 <= b <= 0xEF then
        Continue(Decoder(b - 0xE0, 0, 2, if b == 0xE0 then 0xA0 else 0x80, if b == 0xED then 0x9F else 0xBF))
      else if 0xF0 <= b <= 0xF4 then
        Continue(Decoder(b - 0xF0, 0, 3, if b == 0xF0 then 0x90 else 0x80, if b == 0xF4 then 0x8F else 0xBF))
      else Error(Fresh, false)
    else if !(d.lower <= b <= d.upper) then
      Error(Fresh, true)
    else
      var cp := d.codePoint * 64 + (b - 0x80);
      var seen := d.seen + 1;
      if seen != d.needed then Continue(Decoder(cp, seen, d.needed, 0x80, 0xBF))
      else Emit(cp as char, Fresh)
  }

  /** Runs the decoder over `bs`; an unfinished sequence at the end is one
      replacement character. */
  function DecodeFrom(d: Decoder, bs: seq<byte>): string
    requires Valid(d)
    decreases |bs|, d.needed
  {
    if |bs| == 0 then
      if d.needed != 0 then [Replacement] else []
    else
      match Step(d, bs[0])
      case Emit(c, n) => [c] + DecodeFrom(n, bs[1..])
      case Continue(n) => DecodeFrom(n, bs[1..])
      case Error(n, restore) =>
        [Replacement] + (if restore then DecodeFrom(n, bs) else DecodeFrom(n, bs[1..]))
  }

  /** "UTF-8 decode without BOM". */
  function Decode(bs: seq<byte>): string {
    DecodeFrom(Fresh, bs)
  }

  /** A one-byte scalar decodes in one step. */
  lemma DecodeScalar1(c: char, rest: seq<byte>)
    requires c as int < 0x80
    ensures DecodeFrom(Fresh, EncodeScalar(c) + rest) == [c] + DecodeFrom(Fresh, rest)
  {
    var bs := EncodeScalar(c) + rest;
    assert bs[1..] == rest;
  }

  /** A two-byte scalar decodes through one intermediate state. */
  lemma DecodeScalar2(c: char, rest: seq<byte>)
    requires 0x80 <= c as int < 0x800
    ensures DecodeFrom(Fresh, EncodeScalar(c) + rest) == [c] + DecodeFrom(Fresh, rest)
  {
    var cp := c as int;
    var bs := EncodeScalar(c) + rest;
    var d1 := Decoder(cp / 64, 0, 1, 0x80, 0xBF);
    assert Step(Fresh, bs[0]) == Continue(d1);
    assert bs[1..][1..] == rest;
    assert cp / 64 * 64 + cp % 64 == cp;
    assert Step(d1, bs[1]) == Emit(c, Fresh);
  }

  /** The decoder's states while it reads the three bytes of a scalar. */
  lemma ThreeByteSteps(c: char) returns (d1: Decoder, d2: Decoder)
    requires 0x800 <= c as int < 0x10000
    ensures var bs := EncodeScalar(c);
      && |bs| == 3
      && Step(Fresh, bs[0]) == Continue(d1) && Step(d1, bs[1]) == Continue(d2)
      && Step(d2, bs[2]) == Emit(c, Fresh)
  {
    var cp := c as int;
    var bs := EncodeScalar(c);
    var hi := cp / 4096;
    var mid := (cp / 64) % 64;
    assert cp / 64 == hi * 64 + mid;
    d1 := Decoder(hi, 0, 2, if hi == 0 then 0xA0 else 0x80, if hi == 0xD then 0x9F else 0xBF);
    assert Step(Fresh, bs[0]) == Continue(d1);
    d2 := Decoder(cp / 64, 1, 2, 0x80, 0xBF);
    assert Step(d1, bs[1]) == Continue(d2);
    assert cp / 64 * 64 + cp % 64 == cp;
  }

  /** A three-byte scalar: the E0 and ED lead bytes narrow the next byte's range,
      and the encoder's second byte always falls inside it. */
  lemma DecodeScalar3(c: char, rest: seq<byte>)
    requires 0x800 <= c as int < 0x10000
    ensures DecodeFrom(Fresh, EncodeScalar(c) + rest) == [c] + DecodeFrom(Fresh, rest)
  {
    var bs := EncodeScalar(c) + rest;
    var d1, d2 := ThreeByteSteps(c);
    assert bs[..3] == EncodeScalar(c);
    assert bs[1..][1..][1..] == rest;
    assert DecodeFrom(Fresh, bs) == DecodeFrom(d1, bs[1..]);
    assert DecodeFrom(d1, bs[1..]) == DecodeFrom(d2, bs[1..][1..]);
    assert DecodeFrom(d2, bs[1..][1..]) == [c] + DecodeFrom(Fresh, rest);
  }

  /** The decoder's states while it reads the four bytes of a scalar. */
  lemma FourByteSteps(c: char) returns (d1: Decoder, d2: Decoder, d3: Decoder)
    requires 0x10000 <= c as int
    ensures var bs := EncodeScalar(c);
      && |bs| == 4
      && Step(Fresh, bs[0]) == Continue(d1) && Step(d1, bs[1]) == Continue(d2)
      && Step(d2, bs[2]) == Continue(d3) && Step(d3, bs[3]) == Emit(c, Fresh)
  {
    var cp := c as int;
    var bs := EncodeScalar(c);
    var top := cp / 262144;
    var b1 := (cp / 4096) % 64;
    var b2 := (cp / 64) % 64;
    assert cp / 4096 == top * 64 + b1;
    assert cp / 64 == (cp / 4096) * 64 + b2;
    d1 := Decoder(top, 0, 3, if top == 0 then 0x90 else 0x80, if top == 4 then 0x8F else 0xBF);
    assert Step(Fresh, bs[0]) == Continue(d1);
    d2 := Decoder(cp / 4096, 1, 3, 0x80, 0xBF);
    assert Step(d1, bs[1]) == Continue(d2);
    d3 := Decoder(cp / 64, 2, 3, 0x80, 0xBF);
    assert Step(d2, bs[2]) == Continue(d3);
    assert cp / 64 * 64 + cp % 64 == cp;
  }

  /** A four-byte scalar: the F0 and F4 lead bytes narrow the next byte's range. */
  lemma DecodeScalar4(c: char, rest: seq<byte>)
    requires 0x10000 <= c as int
    ensures DecodeFrom(Fresh, EncodeScalar(c) + rest) == [c] + DecodeFrom(Fresh, rest)
  {
    var cp := c as int;
    var bs := EncodeScalar(c) + rest;
    var d1, d2, d3 := FourByteSteps(c);
    assert bs[..4] == EncodeScalar(c);
    assert bs[1..][1..][1..][1..] == rest;
    assert DecodeFrom(Fresh, bs) == DecodeFrom(d1, bs[1..]);
    assert DecodeFrom(d1, bs[1..]) == DecodeFrom(d2, bs[1..][1..]);
    assert DecodeFrom(d2, bs[1..][1..]) == DecodeFrom(d3, bs[1..][1..][1..]);
    assert DecodeFrom(d3, bs[1..][1..][1..]) == [c] + DecodeFrom(Fresh, rest);
  }

  /** Decoding the encoding of a scalar value gives it back and leaves the
      decoder between scalars. */
  lemma DecodeScalar(c: char, rest: seq<byte>)
    ensures DecodeFrom(Fresh, EncodeScalar(c) + rest) == [c] + DecodeFrom(Fresh, rest)
  {
    var cp := c as int;
    if cp < 0x80 {
      DecodeScalar1(c, rest);
    } else if cp < 0x800 {
      DecodeScalar2(c, rest);
    } else if cp < 0x10000 {
      DecodeScalar3(c, rest);
    } else {
      DecodeScalar4(c, rest);
    }
  }

  /** Round trip: UTF-8 decoding inverts UTF-8 encoding. */
  lemma {:induction false} DecodeEncode(s: string)
    ensures Decode(Encode(s)) == s
    decreases |s|
  {
    if |s| > 0 {
      DecodeScalar(s[0], Encode(s[1..]));
      DecodeEncode(s[1..]);
      assert s == [s[0]] + s[1..];
    }
  }
}

=== FILE: wrappers.dfy ===
/** Failure-carrying datatypes shared by the whole model: `Option` stands for the
    source's `T | null | undefined` values and `Result` for a call that either
    returns a value or throws. */
module Wrappers {

  datatype Option<+T> = None | Some(value: T) {

    /** The value in `Some`, or `default` when absent. */
    function GetOr(default: T): T {
      match this
      case Some(v) => v
      case None => default
    }
  }

  datatype Result<+R, +E> = Success(value: R) | Failure(error: E)
}
